=== FILE: README.md ===
# Travel routes scraper: the pure core

This project models the deterministic logic of `main.py`, a scraper for bus
routes, train routes and hotel listings, and proves properties of it.
Browser automation, HTML parsing, HTTP calls and the Streamlit interface are
left out. The model starts from what those layers hand to the logic:

- the texts of the elements found on a results page;
- the outcome of each element lookup on a hotel card;
- the successive card counts seen while the hotel page scrolls.

The modules follow the structure of the program:

- `Text`: ASCII `lower()`, `strip()`, `replace`, `split`/`join` and substring tests.
- `Numbers`: `int(...)` on digit strings, `int(float(...))` on a restricted decimal grammar, and `f"{n}"`.
- `Labels`: the three label classifiers (`standardize_Gov_bus_name`, `standardize_bus_type`, `standardize_train_name`).
- `Fares`: the bus fare range with its +300 markup, and the per-class train fares (+150 for `SL`, +400 otherwise).
- `Fields`: `extract_bs_text`, the train time and station slices, the running-days frequency, the four hotel cleaners and `extract_text_hybrid`.
- `Alignment`: bus rows cut to the shortest list, train rows padded with `"N/A"` to the longest one.
- `Partition`: the government / private split of the bus table.
- `Rating`: the price filter, the hotel price, and the interval a pseudo-rating is drawn from.
- `Scroll`: `scroll_to_load_all_cards` as a state machine with an abstract clock.
- `Records`: the three scrapers end to end.

The error log is a returned sequence of `LogEntry` values, in the order the
program appends to it. Ratings are intervals in tenths of a star: the band
`Band(30, 35)` is the program's `random.uniform(3.0, 3.5)`.

The pseudo-rating bands follow the code. A price below the filter minimum
but above half the maximum falls into the second test of `main.py:390`, so it
gets the 3.5-4.0 band, not the 2.5-3.0 band. `Rating.NarrowRange` states this.

## Model

| member | source | states |
|---|---|---|
| Labels.GovBusName | main.py:27-30 | The result is the title or "Government Bus"; a title mentioning "service number" in any case becomes "Government Bus" |
| Labels.GovBusNameIff | main.py:27-30 | "Government Bus" comes out exactly when the title mentions "service number" or already is "Government Bus" |
| Labels.GovBusNameIdempotent | main.py:27-30 | Renaming a renamed title changes nothing |
| Labels.BusType | main.py:32-48 | "normal" anywhere gives "Non-AC Seater". Otherwise the cooling comes from the "non-ac"/"a/c"/"a.c." markers and the berth from which of seater/sleeper occur; with neither word the input is returned unchanged |
| Labels.LowerNames | main.py:32-48 | Proof helper about the label literals: lower-casing the cooling and berth names gives their lower-case forms |
| Labels.LowerBusLabelParts | main.py:32-48 | Proof helper about the label literals: a lower-cased canonical label is its cooling name, a space, and its berth name |
| Labels.LowerBusLabelIs | main.py:32-48 | Proof helper about the label literals: lower-casing a canonical label gives the fixed lower-case label |
| Labels.LabelCooling | main.py:34-35 | A lower-cased canonical label carries a Non-AC marker exactly when it is a Non-AC label |
| Labels.LabelBerth | main.py:33-38 | No canonical label says "normal"; it says "seater" exactly when its berth is not Sleeper, and "sleeper" exactly when its berth is not Seater |
| Labels.BusLabelFixed | main.py:32-48 | Each of the six canonical bus types classifies as itself |
| Labels.BusTypeIdempotent | main.py:32-48 | Classifying a bus type twice gives the same result as classifying it once |
| Labels.BusTypeSleeperExample | main.py:39-46 | "AC Sleeper (2+1)" classifies as "AC Sleeper" |
| Labels.BusTypeNonACExample | main.py:35-42 | "Non A/C Seater" classifies as "Non-AC Seater" through its "a/c" marker |
| Labels.BusTypeSlashACExample | main.py:35-41 | "A/C Sleeper" counts as Non-AC and classifies as "Non-AC Sleeper" |
| Labels.BusTypeUnknownExample | main.py:47-48 | A type with neither berth word, "Volvo Multi-Axle", is returned unchanged |
| Labels.TrainKey | main.py:53-54 | The text the rules test has no space in it |
| Labels.ClassifyKey | main.py:55-62 | The if-chain gives the name itself or one of the seven train labels |
| Labels.TrainType | main.py:50-62 | "" and "N/A" give "N/A"; any other name gives itself or one of the seven labels |
| Labels.FirstMatch | main.py:55-61 | Some label comes out exactly when some rule holds; it is the label of a holding rule, and no earlier rule holds |
| Labels.TrainTypeFollowsRules | main.py:50-62 | The train classifier equals the seven-rule table read first-match-wins over the key, with the name itself when no rule matches |
| Labels.LaterRules | main.py:58-61 | The last four rules of the table are the last four tests of the if-chain |
| Labels.ExSubsumesExp | main.py:57 | Testing "exp" or "ex" is the same as testing "ex" alone |
| Labels.SpacedVandeBharatNeverFires | main.py:54-55 | The spaced "vande bharat" test can never hold, because the key has no space |
| Labels.KeyOfWords | main.py:53-54 | The key of two space-separated words is the two words joined |
| Labels.KeyOfFourWords | main.py:53-54 | The key of four space-separated words is the four words joined |
| Labels.ClassifySfExp | main.py:57 | The key "sfexp" classifies as "Superfast Express" |
| Labels.ClassifySuperfastExpress | main.py:61 | The key "superfastexpress" has no "sf" and classifies as "Express" |
| Labels.TrainTypeNotIdempotent | main.py:50-62 | "SF Exp" becomes "Superfast Express", which in turn becomes "Express" |
| Labels.TrainTypeExample | main.py:50-62 | "Mumbai Superfast SF Exp" classifies as "Superfast Express" |
| Fares.ClassMarkup | main.py:223 | The markup is 150 exactly for class "SL", and 400 for every other class |
| Fares.FareRangeReads | main.py:144 | A quoted range "b - b+m" reads back as the base and the marked-up fare |
| Fares.BusFare | main.py:139-146 | The fare becomes a range with the 300 markup, or stays the original text; it stays the original text whenever the cleaned number does not parse |
| Fares.BusFareOfDigits | main.py:140-144 | A fare whose cleaned number is a digit string becomes the range from that number to the number plus 300 |
| Fares.BusFareGrouped | main.py:140-144 | "₹1,200"-style text, with a rupee sign, digits, a thousands comma and digits, becomes the range from the grouped number |
| Fares.BusFarePlain | main.py:140-144 | "₹b" becomes "b - b+300" |
| Fares.BusFareRejects | main.py:141-146 | Text holding a character that is neither part of a number, a space, a rupee sign nor a comma is kept verbatim |
| Fares.TrainFare | main.py:217-228 | An entry becomes "class b - b+m" for a stripped class without a rupee sign, or stays verbatim |
| Fares.TrainFareUnreadable | main.py:220-226 | An entry with one rupee sign whose fare part, commas dropped and stripped, does not read as a number stays verbatim |
| Fares.TrainFareNeedsOneRupee | main.py:218-228 | An entry without exactly one rupee sign is kept verbatim |
| Fares.TrainFareReads | main.py:218-224 | An entry with one rupee sign, whose fare part (commas dropped, stripped) reads as b, becomes its stripped class, a space, and the range from b with that class's markup, whatever spacing surrounds the class |
| Fares.TrainFareOfInt | main.py:218-224 | "class ₹b" with an integer fare becomes the stripped class and the range from b with its markup |
| Fares.TrainFareGrouped | main.py:218-224 | "2A ₹1,450"-style entries drop the thousands comma and become the class and the range from the grouped number |
| Fares.SleeperFare | main.py:220-224 | "SL ₹b", with a space before the rupee sign, becomes "SL b - b+150" |
| Fares.ThirdACFare | main.py:220-224 | "3A₹b" becomes "3A b - b+400" |
| Fares.FareRangeKeepsOut | main.py:144 | A quoted range holds only digits, minus signs and spaces |
| Fares.TrainFareKeepsOut | main.py:217-228 | A rewritten entry introduces no character other than digits, signs and spaces |
| Fares.TrainPrices | main.py:229 | A train with no fare entries gets "N/A" |
| Fares.TrainPricesPieces | main.py:216-229 | With no ';' in the entries, the joined fares split back into one piece per entry: the first entry's fare, then each later entry's fare after a space |
| Numbers.NatStr | main.py:144 | f"{n}" is a non-empty digit string with no leading zero |
| Numbers.IntStrShape | main.py:144 | f"{n}" is a digit string, after a minus sign for a negative n |
| Numbers.NatStrValue | main.py:327-328 | Reading back the digits of f"{n}" gives n |
| Numbers.Digits | main.py:327 | re.sub(r'[^\d]', '', s) leaves only digits |
| Numbers.DigitsOfDigits | main.py:327 | A digit string is left unchanged |
| Numbers.ParseParts | main.py:142 | A number reads only when both parts are digits and it has at least one digit |
| Numbers.ParseUnsigned | main.py:142 | An unsigned number reads only when every character is a digit or a point |
| Numbers.ParseUnsignedWhole | main.py:142 | A digit string reads as its value |
| Numbers.ParseUnsignedFraction | main.py:142 | A number with a fraction reads as its whole part |
| Numbers.ParseTruncated | main.py:142 | int(float(s)) succeeds only on numeral characters, and is negative only after a leading minus sign |
| Numbers.ParseIntStr | main.py:142-144 | In the model, formatting an integer and parsing it back gives the integer; the program agrees only up to 2^53 (see Left out) |
| Numbers.ParseTruncatesFraction | main.py:142 | A fraction is dropped toward zero: "-3.7" reads as -3 |
| Numbers.ParseNegative | main.py:142 | A minus sign negates what the rest reads as |
| Numbers.ParseUnsignedGrammar | main.py:142 | The unsigned reader succeeds exactly on digits, or digits around one point with at least one digit |
| Numbers.ParseTruncatedGrammar | main.py:142 | int(float(s)) succeeds exactly on the modelled numerals: an unsigned numeral, optionally after one sign |
| Numbers.ParseRejects | main.py:142-146 | "", ".", "1-2", "+-1" and "1.2.3" all fail to read |
| Fields.GetText | main.py:84 | get_text(strip=True) is stripped, and one fragment gives that fragment stripped |
| Fields.ExtractText | main.py:81-87 | No extracted text is empty, and there are at most as many texts as elements |
| Fields.ExtractTextAppend | main.py:81-87 | Extracting from two element lists in turn is extracting from their concatenation |
| Fields.ExtractTextMembers | main.py:81-87 | A text is extracted exactly when it is non-empty and is the text of some element |
| Fields.ExtractTextKeepsAll | main.py:81-87 | With no empty element nothing is dropped, and the order is kept |
| Fields.ExtractTextIdempotent | main.py:81-87 | Extracting again from the extracted texts changes nothing |
| Fields.TimeOf | main.py:201 | raw[:5] is the first five characters of a text that has them, and the whole text otherwise |
| Fields.StationOf | main.py:202 | raw[6:].strip() is stripped, and empty for texts of at most six characters |
| Fields.TimeStationRoundTrip | main.py:200-205 | "HH:MM CODE" slices back into the time and the code |
| Fields.TrainTimes | main.py:197-211 | With two spans or more, the times and stations come from the first and the next-to-last span; otherwise all four are "N/A" |
| Fields.TrainTimesReads | main.py:199-209 | Spans "HH:MM SRC", "HH:MM DST" and one more read as the two times and the two stations |
| Fields.DaysOfRun | main.py:233-240 | Seven running days give "D", none gives "N/A", and the result is never empty |
| Fields.DaysOfRunPieces | main.py:237-238 | With one to six running days, or more than seven, and no comma in the day texts, the result split on ',' is the first day, then each later day after a space |
| Fields.Clean | main.py:370-373 | Every cleaner's output is stripped; the title and address hold no line break; the price holds only digits, ',' and '.' |
| Fields.CleanTitle | main.py:370 | The title cleaner keeps the text before the first line break, stripped |
| Fields.CleanAddress | main.py:371 | The address cleaner turns a line break into ", " and strips the result |
| Fields.CleanPrice | main.py:372 | The price cleaner keeps exactly the digits, commas and points, dropping the text around them |
| Fields.CleanIdempotent | main.py:370-373 | Every cleaner is idempotent |
| Fields.ExtractField | main.py:337-347 | The value is stripped; a found element gives its stripped text cleaned, or "N/A" when that text is blank; a missing element gives "N/A" with no log entry; any other failure gives "N/A" and one log entry naming the card and the field |
| Fields.ExtractFieldOfClean | main.py:337-343 | A field whose text is already clean comes back unchanged |
| Alignment.MinLen | main.py:158 | The shortest length is at most every list's length and is the length of some list |
| Alignment.MaxLen | main.py:252 | The longest length is at least every list's length and is the length of some list |
| Alignment.NonEmpty | main.py:153 | The kept lists are exactly the non-empty ones |
| Alignment.Take | main.py:164-171 | l[:n] is the first n entries of l, or all of l |
| Alignment.Pad | main.py:258-266 | l + ["N/A"] * (n - len(l)) keeps l and fills up to n with "N/A" |
| Alignment.Zip | main.py:173 | zip gives as many rows as the shortest list, and row i is the i-th entries followed by the route type |
| Alignment.AlignBuses | main.py:152-177 | No lists give no rows; otherwise there are as many rows as the shortest of all lists, and row i is the lists' i-th entries plus the route type |
| Alignment.ZipOfCut | main.py:163-173 | Zipping the cut lists gives the rows of the uncut lists |
| Alignment.AlignBusesLength | main.py:158-173 | The row count is the shortest length over all lists, zero when any list is empty |
| Alignment.AlignBusesColumn | main.py:163-173 | Column j of the bus rows is the front of list j, and the last field is the route type |
| Alignment.AlignTrains | main.py:247-274 | No lists give no rows; otherwise there are as many rows as the longest list, and row i is the padded entries plus the route type |
| Alignment.ZipOfPadded | main.py:257-270 | Zipping the padded lists gives one row per position of the longest list |
| Alignment.AlignTrainsColumn | main.py:257-270 | Column j of the train rows is list j followed by "N/A" |
| Partition.Select | main.py:472-474 | Each selected row is an input row with the requested government test result |
| Partition.SelectAppend | main.py:473-474 | Selection distributes over concatenation, so each part keeps the row order |
| Partition.PartitionComplete | main.py:472-474 | The two parts together hold every row exactly as often as the input |
| Partition.PartitionMembers | main.py:469-474 | A row is in the government part exactly when it is a government bus, and in the private part exactly when it is not |
| Partition.ServiceNumberIsGovernment | main.py:27-30 | A renamed service-number title marks its row as a government bus |
| Partition.RtcInType | main.py:471 | "RTC" in the bus type, in upper case, still marks a government bus |
| Rating.ReadPriceFilter | main.py:317-335 | Bounds come only from a found text with a '-'; a missing slider and an unreadable one are logged; a text without '-' gives no bounds and no log entry |
| Rating.ReadPriceFilterReads | main.py:325-330 | "lo - hi" written as plain digit strings, with any dash-free, digit-free decoration, reads as its two numbers |
| Rating.DigitsOfGrouped | main.py:327 | The digits of a decorated "t,u" number are t followed by u |
| Rating.ReadPriceFilterGrouped | main.py:325-330 | A slider whose upper bound has a thousands comma, "₹500 - ₹5,000", reads as both numbers |
| Rating.ReadPrice | main.py:385 | "" and "N/A" give no price; a text without digits is unreadable |
| Rating.ReadPriceOf | main.py:385 | A price whose only digits are one plain number n reads as n |
| Rating.ReadPriceGrouped | main.py:372-385 | A price with a thousands comma, as the price cleaner leaves "₹1,234", reads as the digits on both sides of the comma |
| Rating.PriceBand | main.py:387-393 | The 3.0-3.5 band exactly when min <= p <= max/2; the 3.5-4.0 band exactly when max/2 < p <= max; otherwise 2.5-3.0 |
| Rating.PriceBandMonotone | main.py:387-393 | Within the range a dearer hotel never gets a lower band |
| Rating.NarrowRange | main.py:387-393 | With the minimum above the midpoint the lowest band cannot occur, and prices between the midpoint and the minimum get the upper band |
| Rating.PriceBandExamples | main.py:387-393 | In the range 0..100, 50 gets the low band, 90 the high band, and 150 the outside band |
| Rating.EstimateBand | main.py:384-398 | An unreadable price gets the 2.5-3.5 band and the only log entry; a missing price or unknown bounds give the 3.0-4.0 band; a read price with both bounds gets its price band; every band lies within 2.5-4.0 |
| Rating.EstimateBandPriced | main.py:385-393 | With a readable price and both bounds, the price band decides |
| Rating.RateHotel | main.py:378-398 | A card with a star container keeps its star count with no log entry; any other card gets exactly the band and log of EstimateBand for its price and the filter bounds |
| Rating.ZeroStars | main.py:379-383 | An empty star container still counts as the rating "0" |
| Scroll.Observe | main.py:305-309 | The kept count is the running maximum; the time without growth restarts only on strict growth and otherwise grows by the pause |
| Scroll.Run | main.py:299-315 | Every round counted; a Stable stop has waited max_wait with no log entry and carries the count of its last round; a timeout has passed 300 seconds and logs one entry; a failed count logs one entry |
| Scroll.RunTracksMax | main.py:305-307 | The final kept count is the maximum of every count seen |
| Scroll.RunBounded | main.py:312 | Every run ends within 300 seconds plus one round |
| Scroll.Plateau | main.py:306-311 | Once the count stops growing, the loop stops Stable after exactly ceil(max_wait / pause_time) rounds, if the time limit is not reached first |
| Scroll.DefaultPlateau | main.py:299-311 | With the defaults 10 and 2, five rounds without growth end the loop |
| Scroll.AlwaysGrowing | main.py:306-313 | A count that grows every round runs into the time limit after 151 rounds of two seconds |
| Records.MapTexts | main.py:128-130 | The list comprehension keeps the length and maps each text |
| Records.BusColumnsOf | main.py:127-152 | The eight bus lists are in row order: names renamed, types classified, the five time and station texts, fares marked up |
| Records.BusRecords | main.py:121-184 | Bus rows are well formed, exactly as many as the shortest of the eight bus lists; each has eight fields and the route type last |
| Records.BusRecordsFields | main.py:127-173 | Row i holds the i-th title renamed, the i-th subtitle classified, the i-th departure, arrival, source, duration and destination, the i-th fare marked up, and the route type |
| Records.ScrapeBuses | main.py:467-474 | The two tables are the government and the private selections of the bus rows, and together hold exactly those rows |
| Records.TimeColumn | main.py:196-211 | Each of the four time and station lists has one entry per trainTime block |
| Records.TrainTypes | main.py:193 | There is one train type per extracted name |
| Records.TrainFares | main.py:212-229 | There is one fare text per fare menu |
| Records.TrainDays | main.py:230-240 | There is one frequency per days-of-run block |
| Records.TrainColumn | main.py:192-248 | The nine train lists in row order: names, their types, departures, arrivals, sources, durations, destinations, joined fares per menu and frequencies per day block, each with its length |
| Records.TrainRecordsCount | main.py:247-270 | There are as many train rows as the longest of the name, duration, time-block, fare-menu and running-day lists |
| Records.TrainRecordsColumn | main.py:257-270 | Column j of the train rows is train list j followed by "N/A" |
| Records.MapQuery | main.py:284-285 | There is no query exactly when the name is empty or "N/A"; the query starts with the name |
| Records.MapQueryTown | main.py:285 | The query is the name, a comma, and the address up to its first comma |
| Records.ScrapeCard | main.py:368-407 | A card logs at most five entries; each stored field is its extract_text_hybrid value with the matching cleaner; a card with stars stores its count, a starless card the band EstimateBand gives for the stored price; the map query is built from the stored name and address |
| Records.ScrapeCardQuiet | main.py:337-398 | A card read without failure that shows its stars logs nothing |
| Records.ScrapeCardClean | main.py:370-377 | Every stored field is "N/A" or a fixed point of its cleaner |
| Records.ScrapeCards | main.py:368-377 | The i-th card is scraped with index i |
| Records.HotelsOf | main.py:400-407 | One hotel per card, in card order |
| Records.LogsOfBounded | main.py:368-398 | Cards that log at most five entries each log at most five per card together |
| Records.LogsOfQuiet | main.py:368-398 | Cards that log nothing give an empty log |
| Records.ScrapeHotels | main.py:349-409 | One hotel per card, each card scraped with the filter's bounds; the log is the scroll entries, the filter entries, then each card's entries in card order |
| Records.ScrapeHotelsLogBounded | main.py:349-409 | The log holds at most two entries plus five per card |
| Records.ScrapeHotelsQuiet | main.py:349-409 | A stable scroll, a readable filter and quiet cards give an empty log |

## Left out

- Selenium driver setup, navigation, cookie banners, waits, clicking and page-source retrieval: browser I/O. The model takes their outputs as inputs.
- `expand_government_buses`: it only clicks through the page and has no result to model.
- BeautifulSoup parsing and `find_all`/`select`: a foreign library. An element is given as the list of its text fragments, and a page as the element lists the selectors found.
- The network request of `get_google_maps_link`: only the query text is modelled. The returned link, the coordinates and the `None` on a request failure depend on the remote service.
- The Streamlit interface, progress bars, `download_csv` and the pandas tables: user interface and file output. A table is a sequence of rows.
- `random.uniform` and the `:.1f` formatting: the model gives the interval that the rating is drawn from.
- General Python `float()` parsing. The model accepts the grammar: optional sign, digits with an optional fraction, or a point followed by digits. Any other text fails. Exponents, `inf`, `nan`, underscores and surrounding whitespace inside the number are not modelled; the fare code strips whitespace before parsing.
- The real clock: each scroll round takes exactly `pause_time` seconds, and `Scroll.Run` requires a pause above zero, so the loop always terminates.
- Unicode `lower()`, `strip()` and `\d`: the model uses ASCII letters, ASCII whitespace and ASCII digits.
- Console prints, Streamlit messages and the text of exception messages: each log entry records only its kind and, where there is one, the card and field.
- The outer `except Exception` of the two page scrapers (main.py:178, 275), after which the scraper returns the empty list it started with. Among the modelled steps only `int(float(...))` on a fare too large for a double raises an exception other than the `ValueError` the fare code catches; that case is not modelled (see the `Numbers.ParseTruncated` line).
- Records.ScrapeCard: an exception other than a missing element while counting the stars is not modelled. The source would let it escape from the hotel scraper.
- Fares.BusFare: states only that the result is a fare range or the original text. The range is stated for plain, digit-string and "₹1,200"-style fares (`BusFarePlain`, `BusFareOfDigits`, `BusFareGrouped`). No lemma covers a fractional fare such as "₹1,200.50".
- Fares.TrainPrices: states only the "N/A" case in its own contract. The pieces of the joined text are stated by `TrainPricesPieces`, and the rewriting of each entry by `TrainFareReads`.
- Numbers.ParseTruncated: `int(float(s))` goes through a double, which the model does not. Python reads "0.99999999999999999" as 1 where the model gives 0, and "9007199254740993" as 9007199254740992. Above 2^53 the program's fares lose precision; the model keeps the exact value. A fare of 309 digits or more becomes `inf` in the program, and `int(inf)` raises `OverflowError`, which the `except ValueError` of main.py:145 and main.py:225 does not catch: the outer `except Exception` (main.py:178, 275) then makes the whole bus or train scraper return no rows. The model instead turns such a fare into a range.
- Numbers.ParseIntStr: the round trip holds in the model for every integer; in the program, only for integers up to 2^53 in magnitude.
- Rating.PriceBand: compares the price with the exact midpoint max / 2. The program computes `max_filter_price / 2` (main.py:387) as a double, which rounds for maxima above 2^53: with min 0, max 9007199254740995 and price 4503599627370498 the program picks the 3.0-3.5 band and the model the 3.5-4.0 band.
- Rating.EstimateBand: for a read price with both bounds known, a filter maximum of 309 digits or more makes `max_filter_price / 2` raise `OverflowError`; `except Exception` (main.py:396-398) then gives the 2.5-3.5 band and a RatingFailed log entry. The model gives the price band and no log entry.
- Rating.ReadPrice and Rating.ReadPriceFilter: Python 3.11 and later make `int()` raise on strings of more than 4300 digits (main.py:327, 385); the model reads every digit string.

=== FILE: alignment.dfy ===
/** Turning the per-field lists of a results page into rows: buses are cut
    to the shortest list, trains are padded to the longest with "N/A". */
module Alignment {

  type Column = seq<string>

  /** The shortest length among the lists. */
  function MinLen(ls: seq<Column>): (m: nat)
    requires |ls| >= 1
    ensures forall j :: 0 <= j < |ls| ==> m <= |ls[j]|
    ensures exists j :: 0 <= j < |ls| && m == |ls[j]|
    decreases |ls|
  {
    if |ls| == 1 then |ls[0]|
    else
      var rest := MinLen(ls[1..]);
      assert forall j :: 1 <= j < |ls| ==> ls[j] == ls[1..][j - 1];
      if |ls[0]| <= rest then |ls[0]| else rest
  }

  /** The longest length among the lists. */
  function MaxLen(ls: seq<Column>): (m: nat)
    requires |ls| >= 1
    ensures forall j :: 0 <= j < |ls| ==> |ls[j]| <= m
    ensures exists j :: 0 <= j < |ls| && m == |ls[j]|
    decreases |ls|
  {
    if |ls| == 1 then |ls[0]|
    else
      var rest := MaxLen(ls[1..]);
      assert forall j :: 1 <= j < |ls| ==> ls[j] == ls[1..][j - 1];
      if |ls[0]| >= rest then |ls[0]| else rest
  }

  /** The non-empty lists, in order. */
  function NonEmpty(ls: seq<Column>): (r: seq<Column>)
    ensures forall j :: 0 <= j < |r| ==> r[j] != [] && r[j] in ls
    ensures forall j :: 0 <= j < |ls| && ls[j] != [] ==> ls[j] in r
    ensures r == [] ==> forall j :: 0 <= j < |ls| ==> ls[j] == []
    decreases |ls|
  {
    if |ls| == 0 then []
    else
      var rest := NonEmpty(ls[1..]);
      assert forall j :: 1 <= j < |ls| ==> ls[j] == ls[1..][j - 1];
      (if ls[0] != [] then [ls[0]] else []) + rest
  }

  /** Python's l[:n] for n >= 0. */
  function Take(l: Column, n: nat): (r: Column)
    ensures |r| == if |l| <= n then |l| else n
    ensures forall i :: 0 <= i < |r| ==> r[i] == l[i]
  {
    if |l| <= n then l else l[..n]
  }

  /** Python's l + ["N/A"] * (n - len(l)). */
  function Pad(l: Column, n: nat): (r: Column)
    ensures |r| == if |l| <= n then n else |l|
    ensures forall i :: 0 <= i < |r| ==> r[i] == if i < |l| then l[i] else "N/A"
  {
    if |l| < n then l + seq(n - |l|, _ => "N/A") else l
  }

  /** Cutting every list to m, where m is at least the shortest length,
      leaves the shortest length unchanged. */
  lemma TakeKeepsMin(ls: seq<Column>, m: nat, cut: seq<Column>)
    requires |ls| >= 1 && MinLen(ls) <= m
    requires |cut| == |ls| && forall j :: 0 <= j < |ls| ==> cut[j] == Take(ls[j], m)
    ensures MinLen(cut) == MinLen(ls)
  {
    var k :| 0 <= k < |ls| && MinLen(ls) == |ls[k]|;
    assert |cut[k]| == MinLen(ls);
    var k2 :| 0 <= k2 < |cut| && MinLen(cut) == |cut[k2]|;
    assert MinLen(ls) <= |ls[k2]|;
  }

  /** The shortest non-empty list is never shorter than the shortest list. */
  lemma NonEmptyMin(ls: seq<Column>)
    requires |NonEmpty(ls)| >= 1
    ensures |ls| >= 1 && MinLen(ls) <= MinLen(NonEmpty(ls))
    ensures MinLen(NonEmpty(ls)) > 0
  {
    var ne := NonEmpty(ls);
    var k :| 0 <= k < |ne| && MinLen(ne) == |ne[k]|;
    assert ne[k] in ls;
    var j :| 0 <= j < |ls| && ls[j] == ne[k];
  }

  /** One record: the values of the lists at i, then the route type, as
      in Python's zip(..., [route_type] * n). */
  type Row = seq<string>

  /** The values of the lists at position i. */
  function RowAt(ls: seq<Column>, i: nat): (r: seq<string>)
    requires forall j :: 0 <= j < |ls| ==> i < |ls[j]|
    ensures |r| == |ls| && forall j :: 0 <= j < |ls| ==> r[j] == ls[j][i]
  {
    seq(|ls|, j requires 0 <= j < |ls| => ls[j][i])
  }

  /** Python's zip over the lists plus the repeated route type. */
  function Zip(ls: seq<Column>, routeType: string): (rows: seq<Row>)
    requires |ls| >= 1
    ensures |rows| == MinLen(ls)
    ensures forall i :: 0 <= i < |rows| ==> rows[i] == RowAt(ls, i) + [routeType]
  {
    var n := MinLen(ls);
    seq(n, i requires 0 <= i < n => RowAt(ls, i) + [routeType])
  }

  // ---- buses ----

  /** The bus columns, in the order of the row tuple. */
  const NameField := 0
  const TypeField := 1
  const FareField := 7
  const BusFields := 8

  /** The bus rows: no rows when every list is empty; otherwise every list
      is cut to the shortest non-empty length and the lists are zipped,
      which stops at the shortest list of all. */
  function AlignBuses(ls: seq<Column>, routeType: string): (rows: seq<Row>)
    ensures |ls| == 0 ==> rows == []
    ensures |ls| >= 1 ==> |rows| == MinLen(ls)
    ensures forall i :: 0 <= i < |rows| ==>
              (forall j :: 0 <= j < |ls| ==> i < |ls[j]|) && rows[i] == RowAt(ls, i) + [routeType]
  {
    var ne := NonEmpty(ls);
    if |ne| == 0 then
      if |ls| >= 1 then
        assert |ls[0]| == 0;
        []
      else []
    else
      NonEmptyMin(ls);
      var m := MinLen(ne);
      ZipOfCut(ls, m, routeType);
      Zip(TakeAll(ls, m), routeType)
  }

  /** Every list cut to m. */
  function TakeAll(ls: seq<Column>, m: nat): (cut: seq<Column>)
    ensures |cut| == |ls| && forall j :: 0 <= j < |ls| ==> cut[j] == Take(ls[j], m)
  {
    seq(|ls|, j requires 0 <= j < |ls| => Take(ls[j], m))
  }

  /** Zipping the cut lists gives the rows of the uncut lists, as many as
      the shortest list has. */
  lemma ZipOfCut(ls: seq<Column>, m: nat, routeType: string)
    requires |ls| >= 1 && MinLen(ls) <= m
    ensures |Zip(TakeAll(ls, m), routeType)| == MinLen(ls)
    ensures forall i :: 0 <= i < MinLen(ls) ==>
              (forall j :: 0 <= j < |ls| ==> i < |ls[j]|)
              && Zip(TakeAll(ls, m), routeType)[i] == RowAt(ls, i) + [routeType]
  {
    var cut := TakeAll(ls, m);
    TakeKeepsMin(ls, m, cut);
    var rows := Zip(cut, routeType);
    forall i | 0 <= i < MinLen(ls)
      ensures (forall j :: 0 <= j < |ls| ==> i < |ls[j]|) && rows[i] == RowAt(ls, i) + [routeType]
    {
      assert RowAt(cut, i) == RowAt(ls, i);
    }
  }

  /** The row count is the shortest length over all lists: no row when a
      single list is empty, and nothing lost when all lists are equally
      long. */
  lemma AlignBusesLength(ls: seq<Column>, routeType: string)
    ensures forall j :: 0 <= j < |ls| ==> |AlignBuses(ls, routeType)| <= |ls[j]|
    ensures |ls| >= 1 ==> exists j :: 0 <= j < |ls| && |AlignBuses(ls, routeType)| == |ls[j]|
  {
    if |ls| >= 1 {
      var k :| 0 <= k < |ls| && MinLen(ls) == |ls[k]|;
    }
  }

  /** Reading one column back out of the rows gives the front of that list. */
  lemma AlignBusesColumn(ls: seq<Column>, routeType: string, j: nat)
    requires j < |ls|
    ensures var rows := AlignBuses(ls, routeType);
            |rows| <= |ls[j]|
            && forall i :: 0 <= i < |rows| ==>
                 (|rows[i]| == |ls| + 1 && rows[i][j] == ls[j][i] && rows[i][|ls|] == routeType)
  {
    AlignBusesLength(ls, routeType);
  }

  // ---- trains ----

  /** A train row holds nine fields before the route type. */
  const TrainFields := 9

  /** Element i of a list, or "N/A" past its end. */
  function At(l: Column, i: nat): string {
    if i < |l| then l[i] else "N/A"
  }

  /** The values of the lists at position i, "N/A" for lists that are
      shorter. */
  function PaddedRowAt(ls: seq<Column>, i: nat): (r: seq<string>)
    ensures |r| == |ls| && forall j :: 0 <= j < |ls| ==> r[j] == At(ls[j], i)
  {
    seq(|ls|, j requires 0 <= j < |ls| => At(ls[j], i))
  }

  /** Padding every list to m, where m is the longest length, makes every
      list exactly m long. */
  lemma PadToMax(ls: seq<Column>, m: nat, padded: seq<Column>)
    requires |ls| >= 1 && MaxLen(ls) == m
    requires |padded| == |ls| && forall j :: 0 <= j < |ls| ==> padded[j] == Pad(ls[j], m)
    ensures MinLen(padded) == m
  {
    var k :| 0 <= k < |padded| && MinLen(padded) == |padded[k]|;
    assert |ls[k]| <= m;
  }

  /** The longest non-empty list is the longest list. */
  lemma NonEmptyMax(ls: seq<Column>)
    requires |NonEmpty(ls)| >= 1
    ensures |ls| >= 1 && MaxLen(NonEmpty(ls)) == MaxLen(ls)
    ensures MaxLen(NonEmpty(ls)) > 0
  {
    var ne := NonEmpty(ls);
    var k :| 0 <= k < |ne| && MaxLen(ne) == |ne[k]|;
    assert ne[k] in ls;
    var j :| 0 <= j < |ls| && ls[j] == ne[k];
    var j2 :| 0 <= j2 < |ls| && MaxLen(ls) == |ls[j2]|;
    if ls[j2] != [] {
      assert ls[j2] in ne;
    }
  }

  /** The train rows: no rows when every list is empty; otherwise every
      list is padded with "N/A" to the longest length and the lists are
      zipped. */
  function AlignTrains(ls: seq<Column>, routeType: string): (rows: seq<Row>)
    ensures |ls| == 0 ==> rows == []
    ensures |ls| >= 1 ==> |rows| == MaxLen(ls)
    ensures forall i :: 0 <= i < |rows| ==> rows[i] == PaddedRowAt(ls, i) + [routeType]
  {
    var ne := NonEmpty(ls);
    if |ne| == 0 then
      if |ls| >= 1 then
        var k :| 0 <= k < |ls| && MaxLen(ls) == |ls[k]|;
        []
      else []
    else
      NonEmptyMax(ls);
      ZipOfPadded(ls, routeType);
      Zip(PadAll(ls, MaxLen(ne)), routeType)
  }

  /** Every list padded to m. */
  function PadAll(ls: seq<Column>, m: nat): (padded: seq<Column>)
    ensures |padded| == |ls| && forall j :: 0 <= j < |ls| ==> padded[j] == Pad(ls[j], m)
  {
    seq(|ls|, j requires 0 <= j < |ls| => Pad(ls[j], m))
  }

  /** Zipping the lists padded to the longest length gives one row per
      position of the longest list, "N/A" standing in for missing values. */
  lemma ZipOfPadded(ls: seq<Column>, routeType: string)
    requires |ls| >= 1
    ensures |Zip(PadAll(ls, MaxLen(ls)), routeType)| == MaxLen(ls)
    ensures forall i :: 0 <= i < MaxLen(ls) ==>
              Zip(PadAll(ls, MaxLen(ls)), routeType)[i] == PaddedRowAt(ls, i) + [routeType]
  {
    var m := MaxLen(ls);
    var padded := PadAll(ls, m);
    PadToMax(ls, m, padded);
    var rows := Zip(padded, routeType);
    forall i | 0 <= i < m
      ensures rows[i] == PaddedRowAt(ls, i) + [routeType]
    {
      forall j | 0 <= j < |ls|
        ensures padded[j][i] == At(ls[j], i)
      {
        assert |ls[j]| <= m;
      }
      assert RowAt(padded, i) == PaddedRowAt(ls, i);
    }
  }

  /** No list loses an element: the first |l| entries of each column of the
      rows are the list l, and everything after them is "N/A". */
  lemma AlignTrainsColumn(ls: seq<Column>, routeType: string, j: nat)
    requires j < |ls|
    ensures var rows := AlignTrains(ls, routeType);
            |ls[j]| <= |rows|
            && (forall i :: 0 <= i < |ls[j]| ==> rows[i][j] == ls[j][i])
            && (forall i :: |ls[j]| <= i < |rows| ==> rows[i][j] == "N/A")
  {
  }
}

=== FILE: fares.dfy ===
/** Fare text: the bus fare range with its fixed markup, and the per-class
    train fares joined per train. */
module Fares {
  import opened Options
  import opened Text
  import opened Numbers

  const Rupee: char := '\U{20B9}'

  /** Added to every bus fare to form the quoted range. */
  const BusMarkup: nat := 300

  /** Train markup by class: 150 for the sleeper class "SL", 400 for any
      other class. */
  function ClassMarkup(cls: string): (m: nat)
    ensures m == 150 <==> cls == "SL"
    ensures m == 150 || m == 400
  {
    if cls == "SL" then 150 else 400
  }

  /** The quoted range "base - base+markup". */
  function FareRange(base: int, markup: nat): string {
    IntStr(base) + " - " + IntStr(base + markup)
  }

  /** Reads a quoted range back: three space-separated pieces, the middle
      one a dash, the outer ones integers. */
  function ReadRange(s: string): Option<(int, int)> {
    var p := Split(s, ' ');
    if |p| != 3 || p[1] != "-" then None
    else match (ParseTruncated(p[0]), ParseTruncated(p[2]))
      case (Some(lo), Some(hi)) => Some((lo, hi))
      case _ => None
  }

  lemma NoSpaceInIntStr(n: int)
    ensures ' ' !in IntStr(n)
  {
    IntStrShape(n);
  }

  /** A quoted range reads back as the base and the marked-up fare. */
  lemma FareRangeReads(base: int, markup: nat)
    ensures ReadRange(FareRange(base, markup)) == Some((base, base + markup))
  {
    var parts := [IntStr(base), "-", IntStr(base + markup)];
    NoSpaceInIntStr(base);
    NoSpaceInIntStr(base + markup);
    JoinThree(IntStr(base), "-", IntStr(base + markup), " ");
    assert Join(parts, " ") == FareRange(base, markup);
    SplitJoin(parts, ' ');
    ParseIntStr(base);
    ParseIntStr(base + markup);
  }

  // ---- bus fares ----

  /** The fare text without its rupee signs and thousands separators, and
      stripped. */
  function BusFareNumber(text: string): string {
    Strip(Remove(Remove(text, Rupee), ','))
  }

  /** One bus fare: the range from the fare truncated to an integer, or the
      text unchanged when it does not read as a number. */
  function BusFare(text: string): (r: string)
    ensures r == text || exists b :: r == FareRange(b, BusMarkup)
    ensures ParseTruncated(BusFareNumber(text)).None? ==> r == text
  {
    match ParseTruncated(BusFareNumber(text))
    case Some(b) => FareRange(b, BusMarkup)
    case None => text
  }

  /** A fare whose number is a plain digit string becomes the range from
      that number. */
  lemma BusFareOfDigits(text: string, digits: string)
    requires BusFareNumber(text) == digits
    requires 1 <= |digits| && AllDigits(digits)
    ensures BusFare(text) == FareRange(DigitsValue(digits), BusMarkup)
  {
    ParseUnsignedWhole(digits);
    ParseUnsignedOnly(digits, DigitsValue(digits));
    assert ParseTruncated(BusFareNumber(text)) == Some(DigitsValue(digits));
  }

  /** Removing a character that leads the text and occurs nowhere else. */
  lemma RemoveLeading(c: char, s: string)
    requires c !in s
    ensures Remove([c] + s, c) == s
  {
    ReplaceAppend([c], s, c, "");
    assert Remove([c], c) == "";
  }

  /** Removing a character that occurs once, between a and b. */
  lemma RemoveMiddle(a: string, c: char, b: string)
    requires c !in a && c !in b
    ensures Remove(a + [c] + b, c) == a + b
    decreases |a|
  {
    if |a| == 0 {
      assert a + [c] + b == [c] + b;
      RemoveLeading(c, b);
    } else {
      var s := a + [c] + b;
      assert s[0] == a[0] && s[1..] == a[1..] + [c] + b;
      RemoveMiddle(a[1..], c, b);
      assert a == [a[0]] + a[1..];
    }
  }

  /** "₹1,200" style fares: a rupee sign, digits, a thousands comma, digits. */
  lemma BusFareGrouped(thousands: string, units: string)
    requires 1 <= |thousands| && AllDigits(thousands) && AllDigits(units)
    ensures BusFare([Rupee] + thousands + "," + units)
            == FareRange(DigitsValue(thousands + units), BusMarkup)
  {
    GroupedNumber(thousands, units);
    AllDigitsAppend(thousands, units);
    BusFareOfDigits([Rupee] + thousands + "," + units, thousands + units);
  }

  /** Dropping the sign and the separator leaves the digits. */
  lemma GroupedNumber(thousands: string, units: string)
    requires AllDigits(thousands) && AllDigits(units)
    ensures BusFareNumber([Rupee] + thousands + "," + units) == thousands + units
  {
    var grouped := thousands + [','] + units;
    assert [Rupee] + thousands + "," + units == [Rupee] + grouped;
    assert Rupee !in grouped;
    RemoveLeading(Rupee, grouped);
    assert ',' !in thousands && ',' !in units;
    RemoveMiddle(thousands, ',', units);
    AllDigitsAppend(thousands, units);
    DigitsStripped(thousands + units);
    StripStripped(thousands + units);
  }

  /** A plain "₹b" fare gives the range from b to b + 300. */
  lemma BusFarePlain(b: nat)
    ensures BusFare([Rupee] + NatStr(b)) == FareRange(b, BusMarkup)
  {
    var digits := NatStr(b);
    assert Rupee !in digits && ',' !in digits;
    RemoveLeading(Rupee, digits);
    StripStripped(digits);
    NatStrValue(b);
    BusFareOfDigits([Rupee] + digits, digits);
  }

  /** Text holding a character that is no part of a number, and is neither
      whitespace nor removed, is kept verbatim. */
  lemma BusFareRejects(text: string, d: char)
    requires d in text && !IsNumeral(d) && !IsSpace(d) && d != Rupee && d != ','
    ensures BusFare(text) == text
  {
    ReplaceKeepsIn(text, Rupee, "", d);
    ReplaceKeepsIn(Remove(text, Rupee), ',', "", d);
    StripKeepsIn(Remove(Remove(text, Rupee), ','), d);
    var s := BusFareNumber(text);
    var k :| 0 <= k < |s| && s[k] == d;
    assert !IsNumeral(s[k]);
  }

  // ---- train fares ----

  /** One train fare entry "<class>₹<fare>": the class, then the range from
      the fare with the class's markup; any entry without exactly one rupee
      sign, or whose fare does not read as a number, is kept verbatim. */
  function TrainFare(entry: string): (r: string)
    ensures r == entry
            || exists cls, b :: r == cls + " " + FareRange(b, ClassMarkup(cls))
                                && IsStripped(cls) && Rupee !in cls
  {
    var parts := Split(entry, Rupee);
    if |parts| != 2 then entry
    else
      var cls := Strip(parts[0]);
      StripKeepsOut(parts[0], Rupee);
      match ParseTruncated(FareNumber(parts[1]))
      case Some(b) => cls + " " + FareRange(b, ClassMarkup(cls))
      case None => entry
  }

  /** Only an entry with exactly one rupee sign is rewritten. */
  lemma TrainFareNeedsOneRupee(entry: string)
    requires multiset(entry)[Rupee] != 1
    ensures TrainFare(entry) == entry
  {
    SplitCount(entry, Rupee);
  }

  /** The fare part of an entry, ready to be read as a number. */
  function FareNumber(part: string): string {
    Strip(Remove(part, ','))
  }

  lemma FareNumberOfIntStr(b: int)
    ensures FareNumber(IntStr(b)) == IntStr(b)
    ensures Rupee !in IntStr(b)
  {
    var fare := IntStr(b);
    IntStrShape(b);
    assert ',' !in fare && Rupee !in fare;
    assert IsStripped(fare);
    StripStripped(fare);
  }

  /** An entry with one rupee sign, whatever surrounds it, reads as its
      stripped class and the range from its fare with that class's markup,
      once the fare part (commas dropped, stripped) reads as a number. */
  lemma TrainFareReads(pre: string, post: string, b: int)
    requires Rupee !in pre && Rupee !in post
    requires ParseTruncated(FareNumber(post)) == Some(b)
    ensures TrainFare(pre + [Rupee] + post)
            == Strip(pre) + " " + FareRange(b, ClassMarkup(Strip(pre)))
  {
    var entry := pre + [Rupee] + post;
    SplitAtFirst(pre, Rupee, post);
    SplitFirst(post, Rupee);
    assert Split(entry, Rupee) == [pre, post];
    TrainFareRewritten(entry, [pre, post], Strip(pre), b);
  }

  /** An entry with one rupee sign whose fare part does not read as a
      number, "SL ₹N/A" say, is kept verbatim. */
  lemma TrainFareUnreadable(pre: string, post: string)
    requires Rupee !in pre && Rupee !in post
    requires ParseTruncated(FareNumber(post)).None?
    ensures TrainFare(pre + [Rupee] + post) == pre + [Rupee] + post
  {
    var entry := pre + [Rupee] + post;
    SplitAtFirst(pre, Rupee, post);
    SplitFirst(post, Rupee);
    assert Split(entry, Rupee) == [pre, post];
  }

  /** "<class> ₹<fare>" with an integer fare and any spacing around the class. */
  lemma TrainFareOfInt(pre: string, b: int)
    requires Rupee !in pre
    ensures TrainFare(pre + [Rupee] + IntStr(b))
            == Strip(pre) + " " + FareRange(b, ClassMarkup(Strip(pre)))
  {
    FareNumberOfIntStr(b);
    ParseIntStr(b);
    TrainFareReads(pre, IntStr(b), b);
  }

  /** "2A ₹1,450" style entries: a thousands comma in the fare is dropped. */
  lemma TrainFareGrouped(pre: string, thousands: string, units: string)
    requires Rupee !in pre
    requires 1 <= |thousands| && AllDigits(thousands) && AllDigits(units)
    ensures TrainFare(pre + [Rupee] + thousands + "," + units)
            == Strip(pre) + " "
               + FareRange(DigitsValue(thousands + units), ClassMarkup(Strip(pre)))
  {
    var post := thousands + [','] + units;
    assert pre + [Rupee] + thousands + "," + units == pre + [Rupee] + post;
    assert ',' !in thousands && ',' !in units;
    assert Rupee !in post;
    RemoveMiddle(thousands, ',', units);
    AllDigitsAppend(thousands, units);
    DigitsStripped(thousands + units);
    StripStripped(thousands + units);
    ParseUnsignedWhole(thousands + units);
    ParseUnsignedOnly(thousands + units, DigitsValue(thousands + units));
    TrainFareReads(pre, post, DigitsValue(thousands + units));
  }

  /** The sleeper class gets the smaller markup, with spaces before the
      rupee sign dropped: "SL ₹b". */
  lemma SleeperFare(cls: string, b: int)
    requires cls == "SL"
    ensures TrainFare(cls + " " + [Rupee] + IntStr(b)) == cls + " " + FareRange(b, 150)
  {
    assert Rupee !in cls + " " && IsStripped(cls);
    StripTrailingSpace(cls);
    TrainFareOfInt(cls + " ", b);
  }

  /** Any other class, "3A" here, gets the larger one. */
  lemma ThirdACFare(cls: string, b: int)
    requires cls == "3A"
    ensures TrainFare(cls + [Rupee] + IntStr(b)) == cls + " " + FareRange(b, 400)
  {
    assert Rupee !in cls && IsStripped(cls);
    StripStripped(cls);
    assert cls[0] != "SL"[0];
    assert ClassMarkup(cls) == 400;
    TrainFareOfInt(cls, b);
  }

  /** A quoted range holds only digits, minus signs and spaces. */
  lemma FareRangeKeepsOut(base: int, markup: nat, d: char)
    requires !IsNumeral(d) && d != ' '
    ensures d !in FareRange(base, markup)
  {
    IntStrShape(base);
    IntStrShape(base + markup);
    assert d !in " - ";
  }

  /** A rewritten entry holds only characters of the entry, digits, signs
      and spaces: in particular no ';' unless the entry had one. */
  lemma TrainFareKeepsOut(entry: string, d: char)
    requires d !in entry && !IsNumeral(d) && d != ' '
    ensures d !in TrainFare(entry)
  {
    var parts := Split(entry, Rupee);
    SplitKeepsOut(entry, Rupee, d);
    if |parts| == 2 && ParseTruncated(FareNumber(parts[1])).Some? {
      var cls := Strip(parts[0]);
      var b := ParseTruncated(FareNumber(parts[1])).value;
      assert d !in parts[0];
      StripKeepsOut(parts[0], d);
      FareRangeKeepsOut(b, ClassMarkup(cls), d);
      TrainFareRewritten(entry, parts, cls, b);
      KeepsOutOfThree(cls, " ", FareRange(b, ClassMarkup(cls)), d);
    } else {
      TrainFareVerbatim(entry, parts);
    }
  }

  /** The rewritten form of an entry that reads. */
  lemma TrainFareRewritten(entry: string, parts: seq<string>, cls: string, b: int)
    requires parts == Split(entry, Rupee) && |parts| == 2 && cls == Strip(parts[0])
    requires ParseTruncated(FareNumber(parts[1])) == Some(b)
    ensures TrainFare(entry) == cls + " " + FareRange(b, ClassMarkup(cls))
  {
  }

  /** An entry that does not read is kept. */
  lemma TrainFareVerbatim(entry: string, parts: seq<string>)
    requires parts == Split(entry, Rupee)
    requires |parts| != 2 || ParseTruncated(FareNumber(parts[1])).None?
    ensures TrainFare(entry) == entry
  {
  }

  lemma KeepsOutOfThree(a: string, b: string, c: string, d: char)
    requires d !in a && d !in b && d !in c
    ensures d !in a + b + c
  {
  }

  /** All fares of one train: each entry rewritten, joined with "; ", or
      "N/A" for a train with no fare entries. */
  function TrainPrices(entries: seq<string>): (r: string)
    ensures |entries| == 0 ==> r == "N/A"
  {
    if |entries| == 0 then "N/A"
    else Join(seq(|entries|, i requires 0 <= i < |entries| => TrainFare(entries[i])), "; ")
  }

  /** With no ';' in the entries, the joined text splits back into one
      piece per entry: the first entry's fare, then each later entry's fare
      after a space. */
  lemma TrainPricesPieces(entries: seq<string>)
    requires |entries| >= 1
    requires forall i :: 0 <= i < |entries| ==> ';' !in entries[i]
    ensures var ps := Split(TrainPrices(entries), ';');
            |ps| == |entries| && ps[0] == TrainFare(entries[0])
            && forall i :: 1 <= i < |entries| ==> ps[i] == " " + TrainFare(entries[i])
  {
    var fares := seq(|entries|, i requires 0 <= i < |entries| => TrainFare(entries[i]));
    forall i | 0 <= i < |fares|
      ensures ';' !in fares[i]
    {
      TrainFareKeepsOut(entries[i], ';');
    }
    assert "; " == [';'] + " ";
    JoinSplitParts(fares, ';', " ");
  }
}

=== FILE: fields.dfy ===
/** Field-level extraction: element texts, the train time and station
    slices, the running-days frequency, and the hotel card cleaners. */
module Fields {
  import opened Text
  import opened Page

  // ---- element texts ----

  /** BeautifulSoup's get_text(strip=True): every text fragment stripped,
      then concatenated with no separator. */
  function GetText(e: Element): (r: string)
    ensures IsStripped(r)
    ensures |e| == 1 ==> r == Strip(e[0])
    decreases |e|
  {
    if |e| == 0 then "" else Strip(e[0]) + GetText(e[1..])
  }

  /** extract_bs_text: the texts of the elements, in order, skipping empty
      ones. */
  function ExtractText(elements: seq<Element>): (r: seq<string>)
    ensures forall i :: 0 <= i < |r| ==> r[i] != ""
    ensures |r| <= |elements|
    decreases |elements|
  {
    if |elements| == 0 then []
    else
      var t := GetText(elements[0]);
      (if t != "" then [t] else []) + ExtractText(elements[1..])
  }

  lemma {:induction false} ExtractTextAppend(a: seq<Element>, b: seq<Element>)
    ensures ExtractText(a + b) == ExtractText(a) + ExtractText(b)
    decreases |a|
  {
    if |a| == 0 {
      assert a + b == b;
    } else {
      assert (a + b)[0] == a[0];
      assert (a + b)[1..] == a[1..] + b;
      ExtractTextAppend(a[1..], b);
    }
  }

  /** A text is extracted exactly when it is non-empty and is the text of
      one of the elements. */
  lemma {:induction false} ExtractTextMembers(elements: seq<Element>, t: string)
    ensures t in ExtractText(elements)
            <==> t != "" && exists i :: 0 <= i < |elements| && GetText(elements[i]) == t
    decreases |elements|
  {
    if |elements| > 0 {
      ExtractTextMembers(elements[1..], t);
      if exists i :: 0 <= i < |elements[1..]| && GetText(elements[1..][i]) == t {
        var i :| 0 <= i < |elements[1..]| && GetText(elements[1..][i]) == t;
        assert GetText(elements[i + 1]) == t;
      }
      if exists i :: 0 <= i < |elements| && GetText(elements[i]) == t {
        var i :| 0 <= i < |elements| && GetText(elements[i]) == t;
        if i > 0 {
          assert GetText(elements[1..][i - 1]) == t;
        }
      }
    }
  }

  /** When no element is empty nothing is dropped. */
  lemma {:induction false} ExtractTextKeepsAll(elements: seq<Element>)
    requires forall i :: 0 <= i < |elements| ==> GetText(elements[i]) != ""
    ensures |ExtractText(elements)| == |elements|
    ensures forall i :: 0 <= i < |elements| ==> ExtractText(elements)[i] == GetText(elements[i])
    decreases |elements|
  {
    if |elements| > 0 {
      ExtractTextKeepsAll(elements[1..]);
    }
  }

  /** Each text as an element of its own. */
  function Singletons(texts: seq<string>): (r: seq<Element>)
    ensures |r| == |texts|
  {
    seq(|texts|, i requires 0 <= i < |texts| => [texts[i]])
  }

  /** Extracting again from the extracted texts changes nothing. */
  lemma ExtractTextIdempotent(elements: seq<Element>)
    ensures ExtractText(Singletons(ExtractText(elements))) == ExtractText(elements)
  {
    var texts := ExtractText(elements);
    var again := Singletons(texts);
    forall i | 0 <= i < |again|
      ensures GetText(again[i]) == texts[i]
    {
      var t := texts[i];
      assert t in texts;
      ExtractTextMembers(elements, t);
      var j :| 0 <= j < |elements| && GetText(elements[j]) == t;
      StripStripped(t);
    }
    ExtractTextKeepsAll(again);
  }

  // ---- train times ----

  /** raw[:5], with Python's clamping of slice bounds. */
  function TimeOf(raw: string): (r: string)
    ensures |r| <= 5 && |r| <= |raw| && r == raw[..|r|]
    ensures |raw| >= 5 ==> |r| == 5
    ensures |raw| < 5 ==> r == raw
  {
    if |raw| <= 5 then raw else raw[..5]
  }

  /** raw[6:].strip(), with Python's clamping of slice bounds. */
  function StationOf(raw: string): (r: string)
    ensures IsStripped(r)
    ensures |raw| <= 6 ==> r == ""
  {
    if |raw| <= 6 then "" else Strip(raw[6..])
  }

  /** "HH:MM CODE": the time, one separator character, the station code. */
  lemma TimeStationRoundTrip(time: string, sep: char, code: string)
    requires |time| == 5 && IsStripped(code)
    ensures TimeOf(time + [sep] + code) == time
    ensures StationOf(time + [sep] + code) == code
  {
    var raw := time + [sep] + code;
    assert raw[..5] == time;
    assert raw[6..] == code;
    StripStripped(code);
  }

  datatype TrainTime = TrainTime(departure: string, arrival: string, source: string, destination: string)

  const NoTime := TrainTime("N/A", "N/A", "N/A", "N/A")

  /** One trainTime block from the texts of its spans: departure time and
      source station from the first span, arrival time and destination from
      the next-to-last; "N/A" everywhere with fewer than two spans. */
  function TrainTimes(spans: seq<Element>): (r: TrainTime)
    ensures |spans| < 2 ==> r == NoTime
    ensures |spans| >= 2 ==>
              (r.departure == TimeOf(GetText(spans[0]))
               && r.source == StationOf(GetText(spans[0]))
               && r.arrival == TimeOf(GetText(spans[|spans| - 2]))
               && r.destination == StationOf(GetText(spans[|spans| - 2])))
  {
    if |spans| < 2 then NoTime
    else
      var dep := GetText(spans[0]);
      var arr := GetText(spans[|spans| - 2]);
      TrainTime(TimeOf(dep), TimeOf(arr), StationOf(dep), StationOf(arr))
  }

  /** Spans "HH:MM SRC" and "HH:MM DST" followed by one more span read as
      the two times and the two station codes. */
  lemma TrainTimesReads(dep: string, src: string, arr: string, dst: string, last: Element)
    requires |dep| == 5 && |arr| == 5
    requires IsStripped(dep + " " + src) && IsStripped(src)
    requires IsStripped(arr + " " + dst) && IsStripped(dst)
    ensures TrainTimes([[dep + " " + src], [arr + " " + dst], last]) == TrainTime(dep, arr, src, dst)
  {
    StripStripped(dep + " " + src);
    StripStripped(arr + " " + dst);
    TimeStationRoundTrip(dep, ' ', src);
    TimeStationRoundTrip(arr, ' ', dst);
  }

  // ---- running days ----

  /** The frequency column: "D" for a train running on all seven days, the
      running days joined with ", " otherwise, "N/A" when none is marked. */
  function DaysOfRun(days: seq<Element>): (r: string)
    ensures r != ""
    ensures |ExtractText(days)| == 7 ==> r == "D"
    ensures |ExtractText(days)| == 0 ==> r == "N/A"
  {
    var running := ExtractText(days);
    if |running| == 7 then "D"
    else if |running| > 0 then
      JoinNonEmpty(running, ", ");
      Join(running, ", ")
    else "N/A"
  }

  lemma JoinNonEmpty(parts: seq<string>, sep: string)
    requires |parts| >= 1 && parts[0] != ""
    ensures Join(parts, sep) != ""
  {
  }

  /** With no comma in any day's text, between one and six running days
      (or more than seven) give ", ".join of the days: split on ',', the
      first piece is the first day and each later piece is a space and
      its day. */
  lemma DaysOfRunPieces(days: seq<Element>)
    requires forall i :: 0 <= i < |days| ==> ',' !in GetText(days[i])
    requires 1 <= |ExtractText(days)| && |ExtractText(days)| != 7
    ensures var running := ExtractText(days);
            var ps := Split(DaysOfRun(days), ',');
            |ps| == |running| && ps[0] == running[0]
            && forall i :: 1 <= i < |running| ==> ps[i] == " " + running[i]
  {
    var running := ExtractText(days);
    forall k | 0 <= k < |running|
      ensures ',' !in running[k]
    {
      assert running[k] in running;
      ExtractTextMembers(days, running[k]);
    }
    assert ", " == [','] + " ";
    JoinSplitParts(running, ',', " ");
  }

  // ---- hotel card cleaners ----

  datatype Cleaner = TitleCleaner | AddressCleaner | PriceCleaner | TypeCleaner

  /** The characters the price cleaner keeps: digits, ',' and '.'. */
  predicate PriceChar(c: char) {
    '0' <= c <= '9' || c == ',' || c == '.'
  }

  /** Text of price characters has no whitespace to strip. */
  lemma PriceTextStripped(s: string)
    requires forall i :: 0 <= i < |s| ==> PriceChar(s[i])
    ensures IsStripped(s)
  {
    if |s| > 0 {
      assert PriceChar(s[0]) && PriceChar(s[|s| - 1]);
    }
  }

  /** The four hotel cleaners: the first line of the title, the address
      with line breaks turned into ", ", the price's digits and separators,
      and the type; each stripped. */
  function Clean(k: Cleaner, t: string): (r: string)
    ensures IsStripped(r)
    ensures k == TitleCleaner ==> '\n' !in r
    ensures k == AddressCleaner ==> '\n' !in r
    ensures k == PriceCleaner ==> forall i :: 0 <= i < |r| ==> PriceChar(r[i])
  {
    match k
    case TitleCleaner =>
      var first := Split(t, '\n')[0];
      StripKeepsOut(first, '\n');
      Strip(first)
    case AddressCleaner =>
      var joined := Replace(t, '\n', ", ");
      StripKeepsOut(joined, '\n');
      Strip(joined)
    case PriceCleaner =>
      var kept := Filter(t, PriceChar);
      PriceTextStripped(kept);
      StripStripped(kept);
      Strip(kept)
    case TypeCleaner => Strip(t)
  }

  /** The title cleaner keeps the first line, stripped. */
  lemma CleanTitle(a: string, b: string)
    requires '\n' !in a
    ensures Clean(TitleCleaner, a + "\n" + b) == Strip(a)
  {
    SplitAtFirst(a, '\n', b);
  }

  /** The address cleaner joins two lines with ", ", then strips. */
  lemma CleanAddress(a: string, b: string)
    requires '\n' !in a && '\n' !in b
    ensures Clean(AddressCleaner, a + "\n" + b) == Strip(a + ", " + b)
  {
    ReplaceAppend(a + "\n", b, '\n', ", ");
    ReplaceAppend(a, "\n", '\n', ", ");
    assert Replace("\n", '\n', ", ") == ", ";
  }

  /** The price cleaner keeps exactly the run of digits and separators
      between text that holds none of them. */
  lemma CleanPrice(pre: string, x: string, post: string)
    requires forall i :: 0 <= i < |x| ==> PriceChar(x[i])
    requires forall i :: 0 <= i < |pre| ==> !PriceChar(pre[i])
    requires forall i :: 0 <= i < |post| ==> !PriceChar(post[i])
    ensures Clean(PriceCleaner, pre + x + post) == x
  {
    FilterAppend(pre + x, post, PriceChar);
    FilterAppend(pre, x, PriceChar);
    FilterNone(pre, PriceChar);
    FilterNone(post, PriceChar);
    FilterAll(x, PriceChar);
    PriceTextStripped(x);
    StripStripped(x);
  }

  /** Every cleaner is idempotent. */
  lemma CleanIdempotent(k: Cleaner, t: string)
    ensures Clean(k, Clean(k, t)) == Clean(k, t)
  {
    var once := Clean(k, t);
    match k
    case TitleCleaner =>
      SplitFirst(once, '\n');
      StripStripped(once);
    case AddressCleaner =>
      StripStripped(once);
    case PriceCleaner =>
      FilterAll(once, PriceChar);
      StripStripped(once);
    case TypeCleaner =>
      StripIdempotent(t);
  }

  /** A value and the log entries its extraction appended. */
  datatype Extracted = Extracted(value: string, log: seq<LogEntry>)

  /** extract_text_hybrid: the cleaned, stripped text of a found element;
      "N/A" for a missing or empty one, and also for any other failure,
      which alone is logged. */
  function ExtractField(lookup: Lookup, k: Cleaner, card: nat, field: string): (r: Extracted)
    ensures IsStripped(r.value)
    ensures lookup.Found? ==>
              r.value == (if Strip(lookup.text) != "" then Clean(k, Strip(lookup.text)) else "N/A")
    ensures !lookup.Found? ==> r.value == "N/A"
    ensures lookup.Failed? ==> r.log == [FieldFailed(card, field)]
    ensures !lookup.Failed? ==> r.log == []
  {
    match lookup
    case Found(text) =>
      var t := Strip(text);
      Extracted(if t != "" then Clean(k, t) else "N/A", [])
    case Absent => Extracted("N/A", [])
    case Failed => Extracted("N/A", [FieldFailed(card, field)])
  }

  /** A field whose page text is already clean comes back unchanged. */
  lemma ExtractFieldOfClean(k: Cleaner, t: string, card: nat, field: string)
    requires Clean(k, t) != ""
    ensures ExtractField(Found(Clean(k, t)), k, card, field) == Extracted(Clean(k, t), [])
  {
    StripStripped(Clean(k, t));
    CleanIdempotent(k, t);
  }
}

=== FILE: labels.dfy ===
/** The three label classifiers of the scraper: the bus operator name
    (standardize_Gov_bus_name), the bus type (standardize_bus_type) and the
    train type (standardize_train_name). */
module Labels {
  import opened Options
  import opened Text

  // ---- bus operator ----

  const GovernmentBus: string := "Government Bus"

  /** A title that mentions a "service number" is a state-run bus; every
      other title is kept as it was extracted. */
  function GovBusName(raw: string): (r: string)
    ensures r == raw || r == GovernmentBus
    ensures Contains(Lower(raw), "service number") ==> r == GovernmentBus
  {
    if Contains(Lower(raw), "service number") then GovernmentBus else raw
  }

  /** The canonical name is produced exactly for titles that mention a
      service number (or that already are the canonical name). */
  lemma GovBusNameIff(raw: string)
    ensures GovBusName(raw) == GovernmentBus
            <==> Contains(Lower(raw), "service number") || raw == GovernmentBus
  {
  }

  /** Renaming twice is renaming once: the canonical name itself does not
      mention a service number. */
  lemma GovBusNameIdempotent(raw: string)
    ensures GovBusName(GovBusName(raw)) == GovBusName(raw)
  {
    LowerExcludes(GovernmentBus, 'i', 'I');
    AbsentChar(Lower(GovernmentBus), "service number", 4);
  }

  // ---- bus type ----

  datatype Cooling = AC | NonAC
  datatype Berth = Seater | Sleeper | SeaterSleeper

  function CoolingName(c: Cooling): string {
    match c
    case AC => "AC"
    case NonAC => "Non-AC"
  }

  function BerthName(b: Berth): string {
    match b
    case Seater => "Seater"
    case Sleeper => "Sleeper"
    case SeaterSleeper => "Seater-Sleeper"
  }

  /** The six canonical bus types, "AC Seater" to "Non-AC Seater-Sleeper". */
  function BusLabel(c: Cooling, b: Berth): string {
    CoolingName(c) + " " + BerthName(b)
  }

  ghost predicate IsBusLabel(s: string) {
    exists c: Cooling, b: Berth :: s == BusLabel(c, b)
  }

  /** The markers the source reads as "not air-conditioned"; "a/c" and "a.c."
      are among them, so "A/C Sleeper" is a Non-AC bus. */
  predicate SaysNonAC(low: string) {
    Contains(low, "non-ac") || Contains(low, "a/c") || Contains(low, "a.c.")
  }

  /** standardize_bus_type. The console message printed for an
      unclassifiable type is not modelled. */
  function BusType(raw: string): (r: string)
    ensures Contains(Lower(raw), "normal") ==> r == BusLabel(NonAC, Seater)
    ensures r == raw || IsBusLabel(r)
    ensures (!Contains(Lower(raw), "normal") && !Contains(Lower(raw), "seater")
             && !Contains(Lower(raw), "sleeper")) ==> r == raw
    ensures !Contains(Lower(raw), "normal") && Contains(Lower(raw), "sleeper")
            ==> r == BusLabel(if SaysNonAC(Lower(raw)) then NonAC else AC,
                              if Contains(Lower(raw), "seater") then SeaterSleeper else Sleeper)
    ensures (!Contains(Lower(raw), "normal") && Contains(Lower(raw), "seater")
             && !Contains(Lower(raw), "sleeper"))
            ==> r == BusLabel(if SaysNonAC(Lower(raw)) then NonAC else AC, Seater)
  {
    var low := Lower(raw);
    if Contains(low, "normal") then BusLabel(NonAC, Seater)
    else
      var cooling := if SaysNonAC(low) then NonAC else AC;
      var seater := Contains(low, "seater");
      var sleeper := Contains(low, "sleeper");
      if seater && sleeper then BusLabel(cooling, SeaterSleeper)
      else if sleeper then BusLabel(cooling, Sleeper)
      else if seater then BusLabel(cooling, Seater)
      else raw
  }

  /** The lower-cased canonical labels. */
  function LowerBusLabel(c: Cooling, b: Berth): string {
    match (c, b)
    case (AC, Seater) => "ac seater"
    case (AC, Sleeper) => "ac sleeper"
    case (AC, SeaterSleeper) => "ac seater-sleeper"
    case (NonAC, Seater) => "non-ac seater"
    case (NonAC, Sleeper) => "non-ac sleeper"
    case (NonAC, SeaterSleeper) => "non-ac seater-sleeper"
  }

  function LowerCoolingName(c: Cooling): string {
    if c == AC then "ac" else "non-ac"
  }

  function LowerBerthName(b: Berth): string {
    match b
    case Seater => "seater"
    case Sleeper => "sleeper"
    case SeaterSleeper => "seater-sleeper"
  }

  lemma LowerNames(c: Cooling, b: Berth)
    ensures Lower(CoolingName(c)) == LowerCoolingName(c)
    ensures Lower(BerthName(b)) == LowerBerthName(b)
  {
    if c == AC {
      assert Lower("AC") == "ac";
    } else {
      assert Lower("Non-AC") == "non-ac";
    }
    match b
    case Seater => assert Lower("Seater") == "seater";
    case Sleeper => assert Lower("Sleeper") == "sleeper";
    case SeaterSleeper => assert Lower("Seater-Sleeper") == "seater-sleeper";
  }

  lemma LowerBusLabelParts(c: Cooling, b: Berth)
    ensures Lower(BusLabel(c, b)) == LowerCoolingName(c) + " " + LowerBerthName(b)
  {
    LowerAppend(CoolingName(c) + " ", BerthName(b));
    LowerAppend(CoolingName(c), " ");
    assert Lower(" ") == " ";
    LowerNames(c, b);
  }

  lemma LowerBusLabelJoin(c: Cooling, b: Berth)
    ensures LowerCoolingName(c) + " " + LowerBerthName(b) == LowerBusLabel(c, b)
  {
    match (c, b)
    case (AC, Seater) => assert "ac" + " " + "seater" == "ac seater";
    case (AC, Sleeper) => assert "ac" + " " + "sleeper" == "ac sleeper";
    case (AC, SeaterSleeper) => assert "ac" + " " + "seater-sleeper" == "ac seater-sleeper";
    case (NonAC, Seater) => assert "non-ac" + " " + "seater" == "non-ac seater";
    case (NonAC, Sleeper) => assert "non-ac" + " " + "sleeper" == "non-ac sleeper";
    case (NonAC, SeaterSleeper) => assert "non-ac" + " " + "seater-sleeper" == "non-ac seater-sleeper";
  }

  lemma LowerBusLabelIs(c: Cooling, b: Berth)
    ensures Lower(BusLabel(c, b)) == LowerBusLabel(c, b)
  {
    LowerBusLabelParts(c, b);
    LowerBusLabelJoin(c, b);
  }

  /** The cooling marker of a lower-cased canonical label: no label has a
      '/' or a '.', and only the Non-AC ones start with "non-ac". */
  lemma LabelCooling(c: Cooling, b: Berth)
    ensures SaysNonAC(LowerBusLabel(c, b)) <==> c == NonAC
  {
    LowerBusLabelJoin(c, b);
    var berth := LowerBerthName(b);
    assert '/' !in berth && '.' !in berth && 'n' !in berth;
    match c
    case AC => CoolingWords("ac", berth);
    case NonAC => CoolingWords("non-ac", berth);
  }

  /** The cooling markers of a cooling name, a space, and a berth name
      without '/', '.' or 'n'. */
  lemma CoolingWords(cooling: string, berth: string)
    requires cooling == "ac" || cooling == "non-ac"
    requires '/' !in berth && '.' !in berth && 'n' !in berth
    ensures SaysNonAC(cooling + " " + berth) <==> cooling == "non-ac"
  {
    var low := cooling + " " + berth;
    AbsentChar(low, "a/c", 1);
    AbsentChar(low, "a.c.", 1);
    if cooling == "non-ac" {
      ContainsMiddle("", "non-ac", " " + berth);
      assert "" + "non-ac" + (" " + berth) == low;
    } else {
      AbsentChar(low, "non-ac", 0);
    }
  }

  /** The berth words of a lower-cased canonical label; no label has an 'm',
      so none says "normal". */
  lemma LabelBerth(c: Cooling, b: Berth)
    ensures !Contains(LowerBusLabel(c, b), "normal")
    ensures Contains(LowerBusLabel(c, b), "seater") <==> b != Sleeper
    ensures Contains(LowerBusLabel(c, b), "sleeper") <==> b != Seater
  {
    LowerBusLabelJoin(c, b);
    var pre := LowerCoolingName(c) + " ";
    assert 'm' !in pre && 'l' !in pre && 't' !in pre;
    match b
    case Seater => SeaterWords(pre);
    case Sleeper => SleeperWords(pre);
    case SeaterSleeper => BothWords(pre);
  }

  /** A cooling prefix followed by "seater". */
  lemma SeaterWords(pre: string)
    requires 'm' !in pre && 'l' !in pre
    ensures !Contains(pre + "seater", "normal") && Contains(pre + "seater", "seater")
    ensures !Contains(pre + "seater", "sleeper")
  {
    AbsentChar(pre + "seater", "normal", 3);
    ContainsMiddle(pre, "seater", "");
    assert pre + "seater" + "" == pre + "seater";
    AbsentChar(pre + "seater", "sleeper", 1);
  }

  lemma SleeperWords(pre: string)
    requires 'm' !in pre && 't' !in pre
    ensures !Contains(pre + "sleeper", "normal") && !Contains(pre + "sleeper", "seater")
    ensures Contains(pre + "sleeper", "sleeper")
  {
    AbsentChar(pre + "sleeper", "normal", 3);
    AbsentChar(pre + "sleeper", "seater", 3);
    ContainsMiddle(pre, "sleeper", "");
    assert pre + "sleeper" + "" == pre + "sleeper";
  }

  lemma BothWords(pre: string)
    requires 'm' !in pre
    ensures !Contains(pre + "seater-sleeper", "normal")
    ensures Contains(pre + "seater-sleeper", "seater") && Contains(pre + "seater-sleeper", "sleeper")
  {
    AbsentChar(pre + "seater-sleeper", "normal", 3);
    ContainsMiddle(pre, "seater", "-sleeper");
    assert pre + "seater" + "-sleeper" == pre + "seater-sleeper";
    ContainsMiddle(pre + "seater-", "sleeper", "");
    assert pre + "seater-" + "sleeper" + "" == pre + "seater-sleeper";
  }

  /** Each canonical bus type classifies as itself. */
  lemma BusLabelFixed(c: Cooling, b: Berth)
    ensures BusType(BusLabel(c, b)) == BusLabel(c, b)
  {
    LowerBusLabelIs(c, b);
    LabelCooling(c, b);
    LabelBerth(c, b);
  }

  /** Classifying a bus type twice changes nothing. */
  lemma BusTypeIdempotent(raw: string)
    ensures BusType(BusType(raw)) == BusType(raw)
  {
    var r := BusType(raw);
    if r != raw {
      var c: Cooling, b: Berth :| r == BusLabel(c, b);
      BusLabelFixed(c, b);
    }
  }

  /** Worked example: a 2+1 sleeper. */
  lemma BusTypeSleeperExample(raw: string)
    requires raw == "AC Sleeper (2+1)"
    ensures BusType(raw) == "AC Sleeper"
  {
    SleeperExampleLower(raw);
    SleeperExampleWords(Lower(raw));
    AcSleeperText();
  }

  lemma SleeperExampleLower(raw: string)
    requires raw == "AC Sleeper (2+1)"
    ensures Lower(raw) == "ac sleeper (2+1)"
  {
  }

  lemma SleeperExampleWords(low: string)
    requires low == "ac sleeper (2+1)"
    ensures !Contains(low, "normal") && !SaysNonAC(low)
    ensures !Contains(low, "seater") && Contains(low, "sleeper")
  {
    SleeperExampleCooling(low);
    AbsentChar(low, "normal", 0);
    AbsentChar(low, "seater", 3);
    assert OccursAt(low, "sleeper", 3);
  }

  lemma SleeperExampleCooling(low: string)
    requires low == "ac sleeper (2+1)"
    ensures !SaysNonAC(low)
  {
    AbsentChar(low, "non-ac", 0);
    AbsentChar(low, "a/c", 1);
    AbsentChar(low, "a.c.", 1);
  }

  lemma AcSleeperText()
    ensures BusLabel(AC, Sleeper) == "AC Sleeper"
  {
  }

  /** Worked example: "Non A/C" is read through its "a/c" marker. */
  lemma BusTypeNonACExample(raw: string)
    requires raw == "Non A/C Seater"
    ensures BusType(raw) == "Non-AC Seater"
  {
    NonACExampleLower(raw);
    NonACExampleWords(Lower(raw));
    NonAcSeaterText();
  }

  lemma NonACExampleLower(raw: string)
    requires raw == "Non A/C Seater"
    ensures Lower(raw) == "non a/c seater"
  {
  }

  lemma NonACExampleWords(low: string)
    requires low == "non a/c seater"
    ensures !Contains(low, "normal") && SaysNonAC(low)
    ensures Contains(low, "seater") && !Contains(low, "sleeper")
  {
    AbsentChar(low, "normal", 3);
    assert OccursAt(low, "a/c", 4);
    assert OccursAt(low, "seater", 8);
    AbsentChar(low, "sleeper", 1);
  }

  lemma NonAcSeaterText()
    ensures BusLabel(NonAC, Seater) == "Non-AC Seater"
  {
  }

  /** "A/C" is one of the Non-AC markers, so an "A/C Sleeper" is Non-AC. */
  lemma BusTypeSlashACExample(raw: string)
    requires raw == "A/C Sleeper"
    ensures BusType(raw) == "Non-AC Sleeper"
  {
    SlashACExampleLower(raw);
    SlashACExampleWords(Lower(raw));
    NonAcSleeperText();
  }

  lemma SlashACExampleLower(raw: string)
    requires raw == "A/C Sleeper"
    ensures Lower(raw) == "a/c sleeper"
  {
  }

  lemma SlashACExampleWords(low: string)
    requires low == "a/c sleeper"
    ensures !Contains(low, "normal") && SaysNonAC(low)
    ensures !Contains(low, "seater") && Contains(low, "sleeper")
  {
    AbsentChar(low, "normal", 0);
    assert OccursAt(low, "a/c", 0);
    AbsentChar(low, "seater", 3);
    assert OccursAt(low, "sleeper", 4);
  }

  lemma NonAcSleeperText()
    ensures BusLabel(NonAC, Sleeper) == "Non-AC Sleeper"
  {
  }

  /** A type with neither berth word is returned unchanged. */
  lemma BusTypeUnknownExample(raw: string)
    requires raw == "Volvo Multi-Axle"
    ensures BusType(raw) == raw
  {
    UnknownExampleLower(raw);
    UnknownExampleWords(Lower(raw));
  }

  lemma UnknownExampleLower(raw: string)
    requires raw == "Volvo Multi-Axle"
    ensures Lower(raw) == "volvo multi-axle"
  {
  }

  lemma UnknownExampleWords(low: string)
    requires low == "volvo multi-axle"
    ensures !Contains(low, "normal") && !Contains(low, "seater") && !Contains(low, "sleeper")
  {
    AbsentChar(low, "normal", 2);
    AbsentChar(low, "seater", 0);
    AbsentChar(low, "sleeper", 0);
  }

  // ---- train type ----

  const TrainLabels: set<string> :=
    {"VandeBharat", "Superfast Special", "Superfast Express", "Superfast",
     "Special Express", "Special", "Express"}

  /** The text the train rules are matched against: lower case, spaces removed. */
  function TrainKey(raw: string): (k: string)
    ensures ' ' !in k
  {
    Remove(Lower(raw), ' ')
  }

  /** "exp" or "ex", as the source tests it. */
  predicate SaysExpress(k: string) {
    Contains(k, "exp") || Contains(k, "ex")
  }

  /** The source's if-chain over the key, top to bottom; `name` is what
      comes back when no rule fires. */
  function ClassifyKey(k: string, name: string): (r: string)
    ensures r == name || r in TrainLabels
  {
    if Contains(k, "vande bharat") || Contains(k, "vandebharat") then "VandeBharat"
    else if Contains(k, "sf") && Contains(k, "spl") then "Superfast Special"
    else if Contains(k, "sf") && SaysExpress(k) then "Superfast Express"
    else if Contains(k, "sf") then "Superfast"
    else if Contains(k, "spl") && SaysExpress(k) then "Special Express"
    else if Contains(k, "spl") then "Special"
    else if SaysExpress(k) then "Express"
    else name
  }

  /** standardize_train_name: the sentinel for a missing name, otherwise the
      first rule that fires on the key, otherwise the name itself. */
  function TrainType(raw: string): (r: string)
    ensures raw == "" || raw == "N/A" ==> r == "N/A"
    ensures raw != "" && raw != "N/A" ==> r == raw || r in TrainLabels
  {
    if raw == "" || raw == "N/A" then "N/A" else ClassifyKey(TrainKey(raw), raw)
  }

  /** A rule's condition: substring tests combined by and / or. */
  datatype Guard = Has(word: string) | Both(left: Guard, right: Guard) | Either(left: Guard, right: Guard)

  predicate Holds(g: Guard, key: string) {
    match g
    case Has(w) => Contains(key, w)
    case Both(a, b) => Holds(a, key) && Holds(b, key)
    case Either(a, b) => Holds(a, key) || Holds(b, key)
  }

  datatype Rule = Rule(guard: Guard, category: string)

  /** The train-type rules as an ordered table, top to bottom. */
  const TrainRules: seq<Rule> := [
    Rule(Either(Has("vande bharat"), Has("vandebharat")), "VandeBharat"),
    Rule(Both(Has("sf"), Has("spl")), "Superfast Special"),
    Rule(Both(Has("sf"), Either(Has("exp"), Has("ex"))), "Superfast Express"),
    Rule(Has("sf"), "Superfast"),
    Rule(Both(Has("spl"), Either(Has("exp"), Has("ex"))), "Special Express"),
    Rule(Has("spl"), "Special"),
    Rule(Either(Has("exp"), Has("ex")), "Express")
  ]

  /** First match wins: the label of the first rule whose guard holds. */
  function FirstMatch(rules: seq<Rule>, key: string): (r: Option<string>)
    ensures r.Some? <==> exists i :: 0 <= i < |rules| && Holds(rules[i].guard, key)
    ensures r.Some? ==> exists i :: 0 <= i < |rules| && Holds(rules[i].guard, key)
                                    && r.value == rules[i].category
                                    && forall j :: 0 <= j < i ==> !Holds(rules[j].guard, key)
    decreases |rules|
  {
    if |rules| == 0 then None
    else if Holds(rules[0].guard, key) then Some(rules[0].category)
    else
      var r := FirstMatch(rules[1..], key);
      assert forall i :: 1 <= i < |rules| ==> rules[1..][i - 1] == rules[i];
      r
  }

  lemma FirstMatchStep(rules: seq<Rule>, key: string)
    requires |rules| > 0
    ensures FirstMatch(rules, key)
            == if Holds(rules[0].guard, key) then Some(rules[0].category) else FirstMatch(rules[1..], key)
  {
  }

  /** The if-chain is the rule table read first-match-wins; a name no rule
      matches is returned as it is. */
  lemma TrainTypeFollowsRules(raw: string)
    requires raw != "" && raw != "N/A"
    ensures TrainType(raw) == FirstMatch(TrainRules, TrainKey(raw)).GetOr(raw)
  {
    var k := TrainKey(raw);
    var rs := TrainRules;
    assert Holds(Either(Has("exp"), Has("ex")), k) == SaysExpress(k);
    assert Holds(rs[2].guard, k) == (Contains(k, "sf") && SaysExpress(k));
    assert Holds(rs[1].guard, k) == (Contains(k, "sf") && Contains(k, "spl"));
    assert Holds(rs[0].guard, k) == (Contains(k, "vande bharat") || Contains(k, "vandebharat"));
    LaterRules(k);
    FirstMatchStep(rs[2..], k);
    assert rs[2..][1..] == rs[3..];
    FirstMatchStep(rs[1..], k);
    assert rs[1..][1..] == rs[2..];
    FirstMatchStep(rs, k);
  }

  /** The rules from "Superfast" on. */
  lemma LaterRules(k: string)
    ensures FirstMatch(TrainRules[3..], k)
            == if Contains(k, "sf") then Some("Superfast")
               else if Contains(k, "spl") && SaysExpress(k) then Some("Special Express")
               else if Contains(k, "spl") then Some("Special")
               else if SaysExpress(k) then Some("Express")
               else None
  {
    var rs := TrainRules;
    assert Holds(rs[6].guard, k) == SaysExpress(k);
    assert Holds(rs[5].guard, k) == Contains(k, "spl");
    assert Holds(rs[4].guard, k) == (Contains(k, "spl") && SaysExpress(k));
    assert Holds(rs[3].guard, k) == Contains(k, "sf");
    assert FirstMatch(rs[7..], k) == None;
    FirstMatchStep(rs[6..], k);
    assert rs[6..][1..] == rs[7..];
    FirstMatchStep(rs[5..], k);
    assert rs[5..][1..] == rs[6..];
    FirstMatchStep(rs[4..], k);
    assert rs[4..][1..] == rs[5..];
    FirstMatchStep(rs[3..], k);
    assert rs[3..][1..] == rs[4..];
  }

  /** "ex" subsumes "exp": the source's "exp" test never decides anything. */
  lemma ExSubsumesExp(k: string)
    ensures SaysExpress(k) <==> Contains(k, "ex")
  {
    if Contains(k, "exp") {
      assert "ex" + "p" == "exp";
      ContainsPrefixOfSub(k, "ex", "p");
    }
  }

  /** The spaced "vande bharat" test can never fire: spaces are removed
      from the key before any rule is tested. */
  lemma SpacedVandeBharatNeverFires(raw: string)
    ensures !Contains(TrainKey(raw), "vande bharat")
  {
    AbsentChar(TrainKey(raw), "vande bharat", 5);
  }

  /** Lower-casing space-separated words word by word. */
  lemma LowerWords(a: string, b: string)
    ensures Lower(a + " " + b) == Lower(a) + " " + Lower(b)
  {
    LowerAppend(a + " ", b);
    LowerAppend(a, " ");
    assert Lower(" ") == " ";
  }

  /** Removing spaces from space-separated words concatenates them. */
  lemma RemoveSpaceAfter(word: string, rest: string)
    requires ' ' !in word
    ensures Remove(word + " " + rest, ' ') == word + Remove(rest, ' ')
  {
    ReplaceAppend(word + " ", rest, ' ', "");
    ReplaceAppend(word, " ", ' ', "");
  }

  /** "sf" does not occur when both sides of a cut lack it and the cut does
      not fall between an 's' and an 'f'. */
  lemma NoPairAcross(a: string, b: string, x: char, y: char)
    requires !Contains(a, [x, y]) && !Contains(b, [x, y])
    requires |a| == 0 || |b| == 0 || a[|a| - 1] != x || b[0] != y
    ensures !Contains(a + b, [x, y])
  {
    var s := a + b;
    forall i | 0 <= i <= |s| - 2
      ensures !OccursAt(s, [x, y], i)
    {
      if i + 2 <= |a| {
        assert s[i..i + 2] == a[i..i + 2];
        assert !OccursAt(a, [x, y], i);
      } else if i >= |a| {
        assert s[i..i + 2] == b[i - |a|..i - |a| + 2];
        assert !OccursAt(b, [x, y], i - |a|);
      } else {
        assert s[i] == a[|a| - 1] && s[i + 1] == b[0];
      }
    }
  }

  /** The key of two space-separated words is the two words joined. */
  lemma KeyOfWords(raw: string, a: string, b: string)
    requires Lower(raw) == a + " " + b
    requires ' ' !in a && ' ' !in b
    ensures TrainKey(raw) == a + b
  {
    RemoveSpaceAfter(a, b);
  }

  lemma KeyOfSfExp(raw: string)
    requires raw == "SF Exp"
    ensures TrainKey(raw) == "sfexp"
  {
    SfExpLower(raw);
    KeyOfWords(raw, "sf", "exp");
  }

  lemma SfExpLower(raw: string)
    requires raw == "SF Exp"
    ensures Lower(raw) == "sf" + " " + "exp"
  {
  }

  lemma KeyOfSuperfastExpress(raw: string)
    requires raw == "Superfast Express"
    ensures TrainKey(raw) == "superfastexpress"
  {
    SuperfastExpressLower(raw);
    KeyOfWords(raw, "superfast", "express");
  }

  lemma SuperfastExpressLower(raw: string)
    requires raw == "Superfast Express"
    ensures Lower(raw) == "superfast" + " " + "express"
  {
    assert raw == "Superfast" + " " + "Express";
    LowerWords("Superfast", "Express");
    assert Lower("Superfast") == "superfast";
    assert Lower("Express") == "express";
  }

  /** "superfastexpress" has no "sf": its only 'f' follows an 'r'. */
  lemma NoSfInSuperfastExpress()
    ensures !Contains("superfastexpress", "sf")
  {
    AbsentChar("s", "sf", 1);
    AbsentChar("uperfa", "sf", 0);
    AbsentChar("stexpress", "sf", 1);
    NoPairAcross("s", "uperfa", 's', 'f');
    NoPairAcross("s" + "uperfa", "stexpress", 's', 'f');
    assert "s" + "uperfa" + "stexpress" == "superfastexpress";
  }

  lemma ClassifySfExp(name: string)
    ensures ClassifyKey("sfexp", name) == "Superfast Express"
  {
    var k := "sfexp";
    AbsentChar(k, "vande bharat", 0);
    AbsentChar(k, "vandebharat", 0);
    AbsentChar(k, "spl", 2);
    assert OccursAt(k, "sf", 0);
    assert OccursAt(k, "exp", 2);
  }

  lemma ClassifySuperfastExpress(name: string)
    ensures ClassifyKey("superfastexpress", name) == "Express"
  {
    var k := "superfastexpress";
    AbsentChar(k, "vande bharat", 0);
    AbsentChar(k, "vandebharat", 0);
    NoSfInSuperfastExpress();
    AbsentChar(k, "spl", 2);
    assert OccursAt(k, "exp", 9);
  }

  /** The train classifier is not idempotent: "SF Exp" becomes
      "Superfast Express", which has no "sf" once lower-cased and so becomes
      "Express". */
  lemma TrainTypeNotIdempotent(raw: string)
    requires raw == "SF Exp"
    ensures TrainType(raw) == "Superfast Express"
    ensures TrainType(TrainType(raw)) == "Express"
  {
    KeyOfSfExp(raw);
    ClassifySfExp(raw);
    var mid := TrainType(raw);
    KeyOfSuperfastExpress(mid);
    ClassifySuperfastExpress(mid);
  }

  lemma KeyOfFourWords(raw: string, a: string, b: string, c: string, d: string)
    requires Lower(raw) == a + " " + (b + " " + (c + " " + d))
    requires ' ' !in a && ' ' !in b && ' ' !in c && ' ' !in d
    ensures TrainKey(raw) == a + (b + (c + d))
  {
    RemoveSpaceAfter(c, d);
    RemoveSpaceAfter(b, c + " " + d);
    RemoveSpaceAfter(a, b + " " + (c + " " + d));
  }

  lemma KeyOfMumbaiExample(raw: string)
    requires raw == "Mumbai Superfast SF Exp"
    ensures TrainKey(raw) == "mumbaisuperfastsfexp"
  {
    MumbaiExampleLower(raw);
    MumbaiExampleKey(raw);
  }

  lemma MumbaiExampleLower(raw: string)
    requires raw == "Mumbai Superfast SF Exp"
    ensures Lower(raw) == "mumbai" + " " + ("superfast" + " " + ("sf" + " " + "exp"))
  {
    var a, b, c, d := "Mumbai", "Superfast", "SF", "Exp";
    assert raw == a + " " + (b + " " + (c + " " + d));
    LowerFourWords(a, b, c, d);
    MumbaiWordsLower(a, b, c, d);
  }

  lemma MumbaiWordsLower(a: string, b: string, c: string, d: string)
    requires a == "Mumbai" && b == "Superfast" && c == "SF" && d == "Exp"
    ensures Lower(a) == "mumbai" && Lower(b) == "superfast" && Lower(c) == "sf" && Lower(d) == "exp"
  {
  }

  lemma MumbaiExampleKey(raw: string)
    requires Lower(raw) == "mumbai" + " " + ("superfast" + " " + ("sf" + " " + "exp"))
    ensures TrainKey(raw) == "mumbaisuperfastsfexp"
  {
    KeyOfFourWords(raw, "mumbai", "superfast", "sf", "exp");
  }

  /** Lower-casing four space-separated words word by word. */
  lemma LowerFourWords(a: string, b: string, c: string, d: string)
    ensures Lower(a + " " + (b + " " + (c + " " + d)))
            == Lower(a) + " " + (Lower(b) + " " + (Lower(c) + " " + Lower(d)))
  {
    LowerWords(c, d);
    LowerWords(b, c + " " + d);
    LowerWords(a, b + " " + (c + " " + d));
  }

  /** Worked example from the train listings. */
  lemma TrainTypeExample(raw: string)
    requires raw == "Mumbai Superfast SF Exp"
    ensures TrainType(raw) == "Superfast Express"
  {
    KeyOfMumbaiExample(raw);
    MumbaiKeyWords(TrainKey(raw), raw);
  }

  lemma MumbaiKeyWords(k: string, name: string)
    requires k == "mumbaisuperfastsfexp"
    ensures ClassifyKey(k, name) == "Superfast Express"
  {
    AbsentChar(k, "vande bharat", 5);
    AbsentChar(k, "vandebharat", 0);
    AbsentChar(k, "spl", 2);
    assert OccursAt(k, "sf", 15);
    assert OccursAt(k, "exp", 17);
  }
}

=== FILE: numbers.dfy ===
/** Decimal digits: the int(...) and int(float(...)) conversions the
    scraper applies to cleaned price text, and f"{n}" formatting. */
module Numbers {
  import opened Options
  import opened Text

  predicate IsDigit(c: char) {
    '0' <= c <= '9'
  }

  /** The characters a number accepted by ParseTruncated is made of. */
  predicate IsNumeral(c: char) {
    IsDigit(c) || c == '.' || c == '+' || c == '-'
  }

  predicate AllDigits(s: string) {
    forall i :: 0 <= i < |s| ==> IsDigit(s[i])
  }

  /** The value of a string of decimal digits; leading zeros are allowed, as
      in Python's int("0042"). */
  function DigitsValue(s: string): nat
    requires AllDigits(s)
    decreases |s|
  {
    if |s| == 0 then 0
    else 10 * DigitsValue(s[..|s| - 1]) + (s[|s| - 1] as int - '0' as int)
  }

  function DigitChar(d: nat): char
    requires d < 10
  {
    ('0' as int + d) as char
  }

  /** f"{n}" for a natural number: its decimal digits, no leading zero. */
  function NatStr(n: nat): (r: string)
    ensures 1 <= |r| && AllDigits(r)
    ensures r[0] != '0' || n == 0
    decreases n
  {
    if n < 10 then [DigitChar(n)] else NatStr(n / 10) + [DigitChar(n % 10)]
  }

  /** f"{n}" for any integer. */
  function IntStr(n: int): string {
    if n < 0 then "-" + NatStr(-n) else NatStr(n)
  }

  /** f"{n}" is a digit string, after a minus sign when n is negative; it
      neither starts nor ends with whitespace. */
  lemma IntStrShape(n: int)
    ensures 1 <= |IntStr(n)| && IsDigit(IntStr(n)[|IntStr(n)| - 1])
    ensures forall i :: 0 <= i < |IntStr(n)| ==> IsNumeral(IntStr(n)[i])
    ensures forall i :: 1 <= i < |IntStr(n)| ==> IsDigit(IntStr(n)[i])
  {
  }

  /** Reading back what NatStr wrote gives the number. */
  lemma {:induction false} NatStrValue(n: nat)
    ensures DigitsValue(NatStr(n)) == n
    decreases n
  {
    if n >= 10 {
      var s := NatStr(n);
      assert s[..|s| - 1] == NatStr(n / 10);
      NatStrValue(n / 10);
    }
  }

  /** re.sub(r'[^\d]', '', s) */
  function Digits(s: string): (r: string)
    ensures AllDigits(r)
  {
    Filter(s, IsDigit)
  }

  lemma DigitsOfDigits(s: string)
    requires AllDigits(s)
    ensures Digits(s) == s
  {
    FilterAll(s, IsDigit);
  }

  /** A digit string with an optional fraction, read as its integer digits. */
  function ParseParts(whole: string, frac: string): (r: Option<nat>)
    ensures r.Some? ==> AllDigits(whole) && AllDigits(frac) && 1 <= |whole| + |frac|
  {
    if !AllDigits(whole) || !AllDigits(frac) || |whole| + |frac| == 0 then None
    else Some(DigitsValue(whole))
  }

  /** The unsigned part of the decimal grammar, digits [. digits*] | . digits,
      read as the value of its integer digits (the fraction is dropped). */
  function ParseUnsigned(body: string): (r: Option<nat>)
    ensures r.Some? ==> forall i :: 0 <= i < |body| ==> IsDigit(body[i]) || body[i] == '.'
  {
    if '.' in body then
      var k := IndexOf(body, '.');
      assert body == body[..k] + "." + body[k + 1..];
      ParseParts(body[..k], body[k + 1..])
    else ParseParts(body, "")
  }

  lemma ParseUnsignedWhole(digits: string)
    requires 1 <= |digits| && AllDigits(digits)
    ensures ParseUnsigned(digits) == Some(DigitsValue(digits))
  {
  }

  lemma ParseUnsignedFraction(digits: string, frac: string)
    requires AllDigits(digits) && AllDigits(frac)
    requires 1 <= |digits| + |frac|
    ensures ParseUnsigned(digits + "." + frac) == Some(DigitsValue(digits))
  {
    var body := digits + "." + frac;
    forall j | 0 <= j < |digits|
      ensures body[j] != '.'
    {
      assert body[j] == digits[j];
    }
    assert body[|digits|] == '.';
    IndexOfIs(body, '.', |digits|);
    assert body[..|digits|] == digits;
    assert body[|digits| + 1..] == frac;
    assert ParseParts(digits, frac) == Some(DigitsValue(digits));
  }

  /** Digit strings concatenate to digit strings. */
  lemma AllDigitsAppend(a: string, b: string)
    requires AllDigits(a) && AllDigits(b)
    ensures AllDigits(a + b)
  {
    forall i | 0 <= i < |a + b|
      ensures IsDigit((a + b)[i])
    {
      if i < |a| {
        assert (a + b)[i] == a[i];
      } else {
        assert (a + b)[i] == b[i - |a|];
      }
    }
  }

  /** A digit string has no whitespace to strip. */
  lemma DigitsStripped(s: string)
    requires AllDigits(s)
    ensures IsStripped(s)
  {
    if |s| > 0 {
      assert IsDigit(s[0]) && IsDigit(s[|s| - 1]);
    }
  }

  /** int(float(s)) on the decimal grammar  [+|-] (digits [. digits*] | . digits):
      the value truncated toward zero, or None where Python raises ValueError. */
  function ParseTruncated(s: string): (r: Option<int>)
    ensures r.Some? ==> forall i :: 0 <= i < |s| ==> IsNumeral(s[i])
    ensures r.Some? && r.value < 0 ==> |s| > 0 && s[0] == '-'
  {
    var signed := |s| > 0 && (s[0] == '-' || s[0] == '+');
    var body := if signed then s[1..] else s;
    match ParseUnsigned(body)
    case None => None
    case Some(n) =>
      assert forall i :: 1 <= i < |s| && signed ==> s[i] == body[i - 1];
      var v: int := n;
      Some(if signed && s[0] == '-' then -v else v)
  }

  /** Formatting an integer and parsing it back is the identity. */
  lemma ParseIntStr(n: int)
    ensures ParseTruncated(IntStr(n)) == Some(n)
  {
    var s := IntStr(n);
    var digits := if n < 0 then NatStr(-n) else NatStr(n);
    NatStrValue(if n < 0 then -n else n);
    ParseUnsignedWhole(digits);
    if n < 0 {
      assert s[1..] == digits;
    }
  }

  /** A fraction is dropped toward zero: "12.99" reads as 12 and "-3.7" as -3. */
  lemma ParseTruncatesFraction(n: int, frac: string)
    requires AllDigits(frac)
    ensures ParseTruncated(IntStr(n) + "." + frac) == Some(n)
  {
    var m: nat := if n < 0 then -n else n;
    var body := NatStr(m) + "." + frac;
    NatStrValue(m);
    ParseUnsignedFraction(NatStr(m), frac);
    if n < 0 {
      assert IntStr(n) + "." + frac == "-" + body;
      ParseNegative(body, m);
    } else {
      assert IntStr(n) + "." + frac == body;
      assert body[0] == NatStr(m)[0];
      ParseUnsignedOnly(body, m);
    }
  }

  /** A minus sign negates what the rest reads as. */
  lemma ParseNegative(body: string, v: nat)
    requires ParseUnsigned(body) == Some(v)
    ensures ParseTruncated("-" + body) == Some(-(v as int))
  {
    assert ("-" + body)[1..] == body;
  }

  /** Text that starts with a digit reads as it does unsigned. */
  lemma ParseUnsignedOnly(body: string, v: nat)
    requires ParseUnsigned(body) == Some(v) && |body| > 0 && IsDigit(body[0])
    ensures ParseTruncated(body) == Some(v)
  {
  }

  // ---- the grammar float() accepts, stated on its own ----

  /** digits, or digits '.' digits with at least one digit on some side. */
  predicate UnsignedNumeral(b: string) {
    (1 <= |b| && AllDigits(b))
    || exists k :: 0 <= k < |b| && b[k] == '.' && 2 <= |b|
                   && AllDigits(b[..k]) && AllDigits(b[k + 1..])
  }

  /** An unsigned numeral, optionally after one '+' or '-'. */
  predicate Numeral(s: string) {
    UnsignedNumeral(s)
    || (1 <= |s| && (s[0] == '+' || s[0] == '-') && UnsignedNumeral(s[1..]))
  }

  /** The unsigned reader accepts exactly the unsigned numerals. */
  lemma ParseUnsignedGrammar(body: string)
    ensures ParseUnsigned(body).Some? <==> UnsignedNumeral(body)
  {
    if '.' in body {
      var k := IndexOf(body, '.');
      assert body == body[..k] + "." + body[k + 1..];
      assert !AllDigits(body) by {
        assert !IsDigit(body[k]);
      }
      forall j | 0 <= j < |body| && body[j] == '.' && AllDigits(body[..j])
        ensures j == k
      {
      }
    }
  }

  /** int(float(s)) succeeds exactly on the numerals; on "", ".", "1-2",
      "+-1" and "1.2.3" alike it fails. */
  lemma ParseTruncatedGrammar(s: string)
    ensures ParseTruncated(s).Some? <==> Numeral(s)
  {
    var signed := |s| > 0 && (s[0] == '-' || s[0] == '+');
    var body := if signed then s[1..] else s;
    ParseUnsignedGrammar(body);
    if signed {
      forall j | 0 < j < |s|
        ensures !AllDigits(s[..j])
      {
        assert s[..j][0] == s[0];
      }
    }
  }

  /** Text outside the grammar, each for a different reason, is rejected. */
  lemma ParseRejects(s: string)
    requires s in {"", ".", "1-2", "+-1", "1.2.3"}
    ensures ParseTruncated(s).None?
  {
    if s == "1-2" {
      assert !IsDigit(s[1]);
    } else if s == "+-1" {
      assert s[1..] == "-1" && !IsDigit(s[1]);
    } else if s == "1.2.3" {
      assert IndexOf(s, '.') == 1 && s[2..] == "2.3" && !IsDigit(s[3]);
    }
  }
}

=== FILE: option.dfy ===
/** The optional value used wherever the scraper returns None. */
module Options {

  datatype Option<+T> = None | Some(value: T) {

    function GetOr(default: T): T {
      match this
      case Some(v) => v
      case None => default
    }
  }
}

=== FILE: page.dfy ===
/** What the scraper observes from the live page, and the warnings it
    appends to the hotel scraper's error log. */
module Page {

  /** An HTML element as BeautifulSoup's get_text(strip=True) sees it:
      the list of its descendants' text fragments, in document order. */
  type Element = seq<string>

  /** The outcome of asking the browser for one element and its text:
      the text, no such element, or any other failure. */
  datatype Lookup = Found(text: string) | Absent | Failed

  /** One poll of the number of hotel cards on the page. */
  datatype Observation = Count(cards: nat) | QueryError

  /** The entries of the hotel scraper's error log, in the order they are
      appended; the exception messages themselves are not modelled. */
  datatype LogEntry =
    | ScrollTimedOut
    | ScrollFailed
    | FilterNotFound
    | FilterUnreadable
    | FieldFailed(card: nat, field: string)
    | RatingFailed(card: nat)
}

=== FILE: partition.dfy ===
/** Splitting the bus rows into government (state transport corporation)
    buses and private buses. */
module Partition {
  import opened Text
  import opened Labels
  import opened Alignment

  /** Every row carries at least a name and a bus type. */
  predicate WellFormed(rows: seq<Row>) {
    forall i :: 0 <= i < |rows| ==> |rows[i]| > TypeField
  }

  /** A government bus: the canonical government name, or "rtc" in the
      name or in the bus type, in any letter case. */
  predicate IsGovernment(row: Row)
    requires |row| > TypeField
  {
    row[NameField] == GovernmentBus
    || Contains(Lower(row[NameField]), "rtc")
    || Contains(Lower(row[TypeField]), "rtc")
  }

  /** The rows whose government test comes out as gov, in their order. */
  function Select(rows: seq<Row>, gov: bool): (r: seq<Row>)
    requires WellFormed(rows)
    ensures |r| <= |rows|
    ensures forall i :: 0 <= i < |r| ==> r[i] in rows && |r[i]| > TypeField && IsGovernment(r[i]) == gov
    decreases |rows|
  {
    if |rows| == 0 then []
    else
      var rest := Select(rows[1..], gov);
      assert forall i :: 0 <= i < |rest| ==> rest[i] in rows;
      (if IsGovernment(rows[0]) == gov then [rows[0]] else []) + rest
  }

  function Government(rows: seq<Row>): seq<Row>
    requires WellFormed(rows)
  {
    Select(rows, true)
  }

  function Private(rows: seq<Row>): seq<Row>
    requires WellFormed(rows)
  {
    Select(rows, false)
  }

  /** Selection distributes over concatenation, so each part keeps the
      order of the rows. */
  lemma {:induction false} SelectAppend(a: seq<Row>, b: seq<Row>, gov: bool)
    requires WellFormed(a) && WellFormed(b)
    ensures WellFormed(a + b)
    ensures Select(a + b, gov) == Select(a, gov) + Select(b, gov)
    decreases |a|
  {
    forall i | 0 <= i < |a + b|
      ensures |(a + b)[i]| > TypeField
    {
      if i < |a| {
        assert (a + b)[i] == a[i];
      } else {
        assert (a + b)[i] == b[i - |a|];
      }
    }
    if |a| == 0 {
      assert a + b == b;
    } else {
      assert (a + b)[0] == a[0];
      assert (a + b)[1..] == a[1..] + b;
      SelectAppend(a[1..], b, gov);
    }
  }

  /** Together the two parts hold every row exactly as often as the input. */
  lemma {:induction false} PartitionComplete(rows: seq<Row>)
    requires WellFormed(rows)
    ensures multiset(Government(rows)) + multiset(Private(rows)) == multiset(rows)
    ensures |Government(rows)| + |Private(rows)| == |rows|
    decreases |rows|
  {
    if |rows| > 0 {
      PartitionComplete(rows[1..]);
      assert rows == [rows[0]] + rows[1..];
    }
  }

  /** A row lands in the government part exactly when it is a government
      bus, and in the private part exactly when it is not. */
  lemma {:induction false} PartitionMembers(rows: seq<Row>, row: Row)
    requires WellFormed(rows)
    ensures row in Government(rows) <==> row in rows && |row| > TypeField && IsGovernment(row)
    ensures row in Private(rows) <==> row in rows && |row| > TypeField && !IsGovernment(row)
    decreases |rows|
  {
    if |rows| > 0 {
      PartitionMembers(rows[1..], row);
      assert rows == [rows[0]] + rows[1..];
    }
  }

  /** A title that mentioned a service number, once renamed, marks the row
      as a government bus. */
  lemma ServiceNumberIsGovernment(row: Row, raw: string)
    requires |row| > TypeField && row[NameField] == GovBusName(raw)
    requires Contains(Lower(raw), "service number")
    ensures IsGovernment(row)
  {
  }

  /** The letter case of "RTC" does not matter. */
  lemma RtcInType(row: Row, before: string, after: string)
    requires |row| > TypeField && row[TypeField] == before + "RTC" + after
    ensures IsGovernment(row)
  {
    LowerAppend(before + "RTC", after);
    LowerAppend(before, "RTC");
    assert Lower("RTC") == "rtc";
    ContainsMiddle(Lower(before), "rtc", Lower(after));
  }
}

=== FILE: rating.dfy ===
/** Hotel ratings: the star count when the card shows one, otherwise an
    interval to draw a pseudo-rating from, chosen by where the hotel's price
    sits in the page's price filter range. */
module Rating {
  import opened Options
  import opened Text
  import opened Numbers
  import opened Page

  // ---- the price filter ----

  /** The filter's bounds, if read, and what reading them logged. */
  datatype PriceFilter = PriceFilter(bounds: Option<(nat, nat)>, log: seq<LogEntry>)

  /** get_filter_price_range: a slider text holding a '-' gives the digits
      before the first '-' and the digits between the first and the second
      as the bounds; a missing slider or a side without digits is logged;
      a text without '-' gives no bounds and no log entry. */
  function ReadPriceFilter(slider: Lookup): (r: PriceFilter)
    ensures r.bounds.Some? ==> slider.Found? && '-' in slider.text && r.log == []
    ensures slider.Absent? ==> r == PriceFilter(None, [FilterNotFound])
    ensures slider.Failed? ==> r == PriceFilter(None, [FilterUnreadable])
    ensures slider.Found? && '-' !in slider.text ==> r == PriceFilter(None, [])
    ensures r.bounds.None? <==> r.log != [] || (slider.Found? && '-' !in slider.text)
  {
    match slider
    case Absent => PriceFilter(None, [FilterNotFound])
    case Failed => PriceFilter(None, [FilterUnreadable])
    case Found(text) =>
      if '-' !in text then PriceFilter(None, [])
      else
        SplitCount(text, '-');
        var parts := Split(text, '-');
        var lo, hi := Digits(parts[0]), Digits(parts[1]);
        if lo == "" || hi == "" then PriceFilter(None, [FilterUnreadable])
        else PriceFilter(Some((DigitsValue(lo), DigitsValue(hi))), [])
  }

  /** The text has no decimal digit. */
  predicate NoDigits(s: string) {
    forall i :: 0 <= i < |s| ==> !IsDigit(s[i])
  }

  /** The digits of text decorated with non-digits around a number are the
      number's digits. */
  lemma DigitsOfDecorated(pre: string, n: nat, post: string)
    requires NoDigits(pre) && NoDigits(post)
    ensures Digits(pre + NatStr(n) + post) == NatStr(n)
  {
    FilterAppend(pre + NatStr(n), post, IsDigit);
    FilterAppend(pre, NatStr(n), IsDigit);
    FilterNone(pre, IsDigit);
    FilterNone(post, IsDigit);
    DigitsOfDigits(NatStr(n));
  }

  /** A slider text "<decorations>lo<decorations> - <decorations>hi<decorations>"
      reads back as its two numbers, whatever non-digit, dash-free
      decoration (currency signs, spaces, words) surrounds them. The numbers
      here are plain digit strings; ReadPriceFilterGrouped covers one with
      a thousands comma. */
  lemma ReadPriceFilterReads(p: string, lo: nat, q: string, r: string, hi: nat, s: string)
    requires NoDigits(p) && NoDigits(q) && NoDigits(r) && NoDigits(s)
    requires '-' !in p && '-' !in q && '-' !in r && '-' !in s
    ensures ReadPriceFilter(Found(p + NatStr(lo) + q + "-" + r + NatStr(hi) + s))
            == PriceFilter(Some((lo, hi)), [])
  {
    var x, y := p + NatStr(lo) + q, r + NatStr(hi) + s;
    IntStrShape(lo);
    IntStrShape(hi);
    assert '-' !in NatStr(lo) && '-' !in NatStr(hi);
    assert '-' !in x && '-' !in y;
    var text := p + NatStr(lo) + q + "-" + r + NatStr(hi) + s;
    assert [x, y][1..] == [y];
    assert Join([x, y], "-") == text;
    SplitJoin([x, y], '-');
    assert text[|x|] == '-';
    DigitsOfDecorated(p, lo, q);
    DigitsOfDecorated(r, hi, s);
    NatStrValue(lo);
    NatStrValue(hi);
  }

  /** The digits of a decorated "t,u" number are t followed by u. */
  lemma DigitsOfGrouped(pre: string, t: string, u: string, post: string)
    requires NoDigits(pre) && NoDigits(post) && AllDigits(t) && AllDigits(u)
    ensures Digits(pre + t + "," + u + post) == t + u
  {
    var left, right := pre + t, [','] + (u + post);
    assert pre + t + "," + u + post == left + right;
    FilterAppend(left, right, IsDigit);
    FilterAppend(pre, t, IsDigit);
    FilterNone(pre, IsDigit);
    FilterAll(t, IsDigit);
    assert Digits(left) == t;
    FilterAppend([','], u + post, IsDigit);
    FilterNone([','], IsDigit);
    FilterAppend(u, post, IsDigit);
    FilterAll(u, IsDigit);
    FilterNone(post, IsDigit);
    assert Digits(right) == u;
  }

  /** A slider whose upper bound is written with a thousands comma,
      "₹500 - ₹5,000" say, reads as both numbers. */
  lemma ReadPriceFilterGrouped(p: string, lo: nat, q: string, r: string, t: string, u: string, s: string)
    requires NoDigits(p) && NoDigits(q) && NoDigits(r) && NoDigits(s)
    requires '-' !in p && '-' !in q && '-' !in r && '-' !in s
    requires 1 <= |t| && AllDigits(t) && AllDigits(u)
    ensures ReadPriceFilter(Found(p + NatStr(lo) + q + "-" + r + t + "," + u + s))
            == PriceFilter(Some((lo, DigitsValue(t + u))), [])
  {
    var x, y := p + NatStr(lo) + q, r + t + "," + u + s;
    IntStrShape(lo);
    assert '-' !in NatStr(lo) && '-' !in x;
    assert '-' !in t && '-' !in u && '-' !in y;
    var text := p + NatStr(lo) + q + "-" + r + t + "," + u + s;
    assert [x, y][1..] == [y];
    assert Join([x, y], "-") == text;
    SplitJoin([x, y], '-');
    assert text[|x|] == '-';
    DigitsOfDecorated(p, lo, q);
    DigitsOfGrouped(r, t, u, s);
    NatStrValue(lo);
  }

  // ---- the hotel's price ----

  /** A cleaned price: absent, a number, or text without any digit. */
  datatype PriceReading = NoPrice | Priced(amount: nat) | Unreadable

  /** int(re.sub(r'[^\d]', '', price)) when the price is neither empty nor
      "N/A"; a price without digits makes int() fail. */
  function ReadPrice(price: string): (r: PriceReading)
    ensures r.NoPrice? <==> price == "" || price == "N/A"
    ensures r.Unreadable? <==> price != "" && price != "N/A" && NoDigits(price)
  {
    if price == "" || price == "N/A" then NoPrice
    else
      var d := Digits(price);
      if d == "" then
        FilterNoneIff(price);
        Unreadable
      else
        FilterNoneIff(price);
        Priced(DigitsValue(d))
  }

  lemma FilterNoneIff(s: string)
    ensures Digits(s) == "" <==> NoDigits(s)
  {
    if NoDigits(s) {
      FilterNone(s, IsDigit);
    }
    forall i | 0 <= i < |s| && IsDigit(s[i])
      ensures Digits(s) != ""
    {
      FilterKeeps(s, i);
    }
  }

  /** Every kept character survives the filter. */
  lemma {:induction false} FilterKeeps(s: string, k: nat)
    requires k < |s| && IsDigit(s[k])
    ensures s[k] in Digits(s)
    decreases |s|
  {
    if k > 0 {
      FilterKeeps(s[1..], k - 1);
    }
  }

  /** A price with digits reads as the number they spell. */
  lemma ReadPriceOf(pre: string, n: nat, post: string)
    requires NoDigits(pre) && NoDigits(post)
    ensures ReadPrice(pre + NatStr(n) + post) == Priced(n)
  {
    DigitsOfDecorated(pre, n, post);
    NatStrValue(n);
    var t := pre + NatStr(n) + post;
    assert t[|pre|] == NatStr(n)[0];
    HasDigit(t, |pre|);
    assert Digits(t) == NatStr(n);
  }

  /** A price of a thousand or more as the card shows it, "₹1,234" say,
      reads as the digits on both sides of the comma. */
  lemma ReadPriceGrouped(pre: string, t: string, u: string, post: string)
    requires NoDigits(pre) && NoDigits(post)
    requires 1 <= |t| && AllDigits(t) && AllDigits(u)
    ensures ReadPrice(pre + t + "," + u + post) == Priced(DigitsValue(t + u))
  {
    var text := pre + t + "," + u + post;
    DigitsOfGrouped(pre, t, u, post);
    assert text[|pre|] == t[0];
    HasDigit(text, |pre|);
  }

  /** Text with a digit is neither empty nor "N/A". */
  lemma HasDigit(t: string, k: nat)
    requires k < |t| && IsDigit(t[k])
    ensures t != "" && t != "N/A"
  {
    if |t| == 3 {
      assert "N/A"[0] == 'N' && "N/A"[1] == '/' && "N/A"[2] == 'A';
    }
  }

  // ---- bands ----

  /** An interval of ratings, in tenths of a star. */
  datatype Band = Band(lo: nat, hi: nat)

  const LowBand := Band(30, 35)
  const HighBand := Band(35, 40)
  const OutsideBand := Band(25, 30)
  const NeutralBand := Band(30, 40)
  const FallbackBand := Band(25, 35)

  /** The band for a hotel priced p in a filter range min..max, compared
      with the exact midpoint max / 2. */
  function PriceBand(p: nat, min: nat, max: nat): (b: Band)
    ensures b == LowBand <==> min as real <= p as real <= max as real / 2.0
    ensures b == HighBand <==> max as real / 2.0 < p as real <= max as real
    ensures b == OutsideBand <==> !(min as real <= p as real <= max as real / 2.0)
                                  && !(max as real / 2.0 < p as real <= max as real)
  {
    if min <= p && 2 * p <= max then LowBand
    else if 2 * p > max && p <= max then HighBand
    else OutsideBand
  }

  /** Within the range a dearer hotel never gets a lower band. */
  lemma PriceBandMonotone(p: nat, q: nat, min: nat, max: nat)
    requires p <= q <= max
    ensures PriceBand(p, min, max).lo <= PriceBand(q, min, max).lo
    ensures PriceBand(p, min, max).hi <= PriceBand(q, min, max).hi
  {
  }

  /** When the lower bound is above the midpoint the lowest band in the
      range cannot be chosen, and hotels below the lower bound but above
      the midpoint get the upper band. */
  lemma NarrowRange(p: nat, min: nat, max: nat)
    requires 2 * min > max
    ensures PriceBand(p, min, max) != LowBand
    ensures max < 2 * p <= 2 * max && p < min ==> PriceBand(p, min, max) == HighBand
  {
  }

  /** In a filter range 0..100: 50 is at the midpoint, 90 above it, 150
      beyond the range. */
  lemma PriceBandExamples()
    ensures PriceBand(50, 0, 100) == LowBand
    ensures PriceBand(90, 0, 100) == HighBand
    ensures PriceBand(150, 0, 100) == OutsideBand
  {
  }

  /** A band and what choosing it logged. */
  datatype Estimate = Estimate(band: Band, log: seq<LogEntry>)

  /** The band for a hotel without a star count: an unreadable price is
      logged and gets the fallback band; a missing price or unknown filter
      bounds give the neutral band; otherwise the price decides. */
  function EstimateBand(price: string, bounds: Option<(nat, nat)>, card: nat): (r: Estimate)
    ensures 25 <= r.band.lo < r.band.hi <= 40
    ensures r.log != [] <==> ReadPrice(price).Unreadable?
    ensures r.log == [] || r.log == [RatingFailed(card)]
    ensures ReadPrice(price).Unreadable? ==> r.band == FallbackBand
    ensures ReadPrice(price).NoPrice? ==> r.band == NeutralBand
    ensures ReadPrice(price).Priced? && bounds.None? ==> r.band == NeutralBand
    ensures ReadPrice(price).Priced? && bounds.Some?
            ==> r.band == PriceBand(ReadPrice(price).amount, bounds.value.0, bounds.value.1)
  {
    match ReadPrice(price)
    case Unreadable => Estimate(FallbackBand, [RatingFailed(card)])
    case NoPrice => Estimate(NeutralBand, [])
    case Priced(p) =>
      match bounds
      case None => Estimate(NeutralBand, [])
      case Some((min, max)) => Estimate(PriceBand(p, min, max), [])
  }

  /** The price decides only when it is read and both bounds are known. */
  lemma EstimateBandPriced(pre: string, n: nat, post: string, min: nat, max: nat, card: nat)
    requires NoDigits(pre) && NoDigits(post)
    ensures EstimateBand(pre + NatStr(n) + post, Some((min, max)), card)
            == Estimate(PriceBand(n, min, max), [])
  {
    ReadPriceOf(pre, n, post);
  }

  /** A hotel's rating: the shown star count, or the band to draw from. */
  datatype HotelRating = Stars(text: string) | Estimated(band: Band)

  /** A card with a star container shows its count, "0" included, and no
      estimate is made; any other card gets an estimated band. */
  function RateHotel(stars: Option<nat>, price: string, bounds: Option<(nat, nat)>, card: nat)
    : (r: (HotelRating, seq<LogEntry>))
    ensures stars.Some? ==> r.0.Stars? && r.1 == [] && ReadPrice(r.0.text) == Priced(stars.value)
    ensures stars.None? ==> r.0.Estimated? && |r.1| <= 1
    ensures stars.None? ==> r == (Estimated(EstimateBand(price, bounds, card).band),
                                  EstimateBand(price, bounds, card).log)
  {
    match stars
    case Some(n) =>
      ReadPriceOf("", n, "");
      assert "" + NatStr(n) + "" == NatStr(n);
      (Stars(NatStr(n)), [])
    case None =>
      var e := EstimateBand(price, bounds, card);
      (Estimated(e.band), e.log)
  }

  /** A star container with no stars still counts as a rating: "0". */
  lemma ZeroStars(price: string, bounds: Option<(nat, nat)>, card: nat)
    ensures RateHotel(Some(0), price, bounds, card) == (Stars("0"), [])
  {
  }
}

=== FILE: records.dfy ===
/** The three scrapers end to end, from the elements of a page to records:
    bus rows split into government and private buses, train rows, and
    hotel records with the error log. */
module Records {
  import opened Options
  import opened Text
  import opened Page
  import opened Labels
  import opened Fares
  import opened Fields
  import opened Alignment
  import opened Partition
  import opened Rating
  import opened Scroll

  /** The list comprehension [f(x) for x in xs]. */
  function MapTexts(f: string -> string, xs: seq<string>): (r: seq<string>)
    ensures |r| == |xs| && forall i :: 0 <= i < |xs| ==> r[i] == f(xs[i])
  {
    seq(|xs|, i requires 0 <= i < |xs| => f(xs[i]))
  }

  // ---- buses ----

  /** The elements of a bus results page, by the class they were found by. */
  datatype BusPage = BusPage(titles: seq<Element>, subtitles: seq<Element>, departures: seq<Element>,
                             arrivals: seq<Element>, sources: seq<Element>, durations: seq<Element>,
                             destinations: seq<Element>, fares: seq<Element>)

  /** The bus titles, service numbers renamed. */
  function BusNames(page: BusPage): Column {
    MapTexts(GovBusName, ExtractText(page.titles))
  }

  /** The bus types, classified. */
  function BusTypes(page: BusPage): Column {
    MapTexts(BusType, ExtractText(page.subtitles))
  }

  /** The fares, with the markup. */
  function BusFares(page: BusPage): Column {
    MapTexts(BusFare, ExtractText(page.fares))
  }

  /** Bus list j in the order of the row tuple: name, type, departure,
      arrival, source, duration, destination, fare. */
  function BusColumn(page: BusPage, j: nat): (c: Column)
    requires j < BusFields
  {
    match j
    case 0 => BusNames(page)
    case 1 => BusTypes(page)
    case 2 => ExtractText(page.departures)
    case 3 => ExtractText(page.arrivals)
    case 4 => ExtractText(page.sources)
    case 5 => ExtractText(page.durations)
    case 6 => ExtractText(page.destinations)
    case _ => BusFares(page)
  }

  /** The eight bus lists in the order of the row tuple. */
  function BusColumnsOf(page: BusPage): (ls: seq<Column>)
    ensures |ls| == BusFields
    ensures ls[NameField] == BusNames(page) && ls[TypeField] == BusTypes(page)
    ensures ls[FareField] == BusFares(page)
    ensures ls[2] == ExtractText(page.departures) && ls[3] == ExtractText(page.arrivals)
    ensures ls[4] == ExtractText(page.sources) && ls[5] == ExtractText(page.durations)
    ensures ls[6] == ExtractText(page.destinations)
  {
    seq(BusFields, j requires 0 <= j < BusFields => BusColumn(page, j))
  }

  /** scrape_buses_from_source: the aligned bus rows of a page. */
  function BusRecords(page: BusPage, routeType: string): (rows: seq<Row>)
    ensures WellFormed(rows)
    ensures |rows| == MinLen(BusColumnsOf(page))
    ensures |rows| <= |ExtractText(page.titles)| && |rows| <= |ExtractText(page.fares)|
    ensures forall i :: 0 <= i < |rows| ==> |rows[i]| == BusFields + 1 && rows[i][BusFields] == routeType
  {
    var ls := BusColumnsOf(page);
    AlignBusesColumn(ls, routeType, NameField);
    AlignBusesColumn(ls, routeType, FareField);
    AlignBuses(ls, routeType)
  }

  /** Bus row i holds the i-th title renamed, the i-th subtitle classified,
      the i-th departure, arrival, source, duration and destination texts,
      the i-th fare with its markup, and the route type. */
  lemma BusRecordsFields(page: BusPage, routeType: string, i: nat)
    requires i < |BusRecords(page, routeType)|
    ensures var row := BusRecords(page, routeType)[i];
            var titles := ExtractText(page.titles);
            var types := ExtractText(page.subtitles);
            var fares := ExtractText(page.fares);
            i < |titles| && i < |types| && i < |fares|
            && row[NameField] == GovBusName(titles[i])
            && row[TypeField] == BusType(types[i])
            && row[FareField] == BusFare(fares[i])
            && row[BusFields] == routeType
    ensures var row := BusRecords(page, routeType)[i];
            i < |ExtractText(page.departures)| && i < |ExtractText(page.arrivals)|
            && i < |ExtractText(page.sources)| && i < |ExtractText(page.durations)|
            && i < |ExtractText(page.destinations)|
            && row[2] == ExtractText(page.departures)[i] && row[3] == ExtractText(page.arrivals)[i]
            && row[4] == ExtractText(page.sources)[i] && row[5] == ExtractText(page.durations)[i]
            && row[6] == ExtractText(page.destinations)[i]
  {
    BusRecordsAt(page, routeType, i, 0);
    BusRecordsAt(page, routeType, i, 1);
    BusRecordsAt(page, routeType, i, 2);
    BusRecordsAt(page, routeType, i, 3);
    BusRecordsAt(page, routeType, i, 4);
    BusRecordsAt(page, routeType, i, 5);
    BusRecordsAt(page, routeType, i, 6);
    BusRecordsAt(page, routeType, i, 7);
  }

  lemma BusRecordsAt(page: BusPage, routeType: string, i: nat, j: nat)
    requires i < |BusRecords(page, routeType)| && j < BusFields
    ensures i < |BusColumnsOf(page)[j]|
    ensures BusRecords(page, routeType)[i][j] == BusColumnsOf(page)[j][i]
    ensures BusRecords(page, routeType)[i][BusFields] == routeType
  {
    AlignBusesColumn(BusColumnsOf(page), routeType, j);
  }

  /** The bus page's two tables: government buses and private buses. */
  function ScrapeBuses(page: BusPage, routeType: string): (r: (seq<Row>, seq<Row>))
    ensures var rows := BusRecords(page, routeType);
            r.0 == Government(rows) && r.1 == Private(rows)
    ensures |r.0| + |r.1| == |BusRecords(page, routeType)|
    ensures multiset(r.0) + multiset(r.1) == multiset(BusRecords(page, routeType))
  {
    var rows := BusRecords(page, routeType);
    PartitionComplete(rows);
    (Government(rows), Private(rows))
  }

  // ---- trains ----

  /** The elements of a train results page: names, durations, one
      trainTime block of spans per train, one scrolling menu of fare
      entries per train, and one days-of-run block per train. */
  datatype TrainPage = TrainPage(names: seq<Element>, durations: seq<Element>,
                                 times: seq<seq<Element>>, fareMenus: seq<seq<Element>>,
                                 runningDays: seq<seq<Element>>)

  /** One part of every train's times. */
  function TimeColumn(times: seq<TrainTime>, part: nat): (c: Column)
    requires part < 4
    ensures |c| == |times|
  {
    seq(|times|, i requires 0 <= i < |times| =>
      match part
      case 0 => times[i].departure
      case 1 => times[i].arrival
      case 2 => times[i].source
      case _ => times[i].destination)
  }

  function TrainNames(page: TrainPage): Column {
    ExtractText(page.names)
  }

  /** The train types, classified from the names. */
  function TrainTypes(page: TrainPage): (c: Column)
    ensures |c| == |TrainNames(page)|
  {
    MapTexts(TrainType, TrainNames(page))
  }

  /** The times and stations of every trainTime block. */
  function TimesOf(page: TrainPage): (ts: seq<TrainTime>)
    ensures |ts| == |page.times|
  {
    seq(|page.times|, i requires 0 <= i < |page.times| => TrainTimes(page.times[i]))
  }

  function TrainDurations(page: TrainPage): Column {
    ExtractText(page.durations)
  }

  /** One joined fare text per fare menu. */
  function TrainFares(page: TrainPage): (c: Column)
    ensures |c| == |page.fareMenus|
  {
    seq(|page.fareMenus|, i requires 0 <= i < |page.fareMenus| =>
      TrainPrices(ExtractText(page.fareMenus[i])))
  }

  /** One frequency per days-of-run block. */
  function TrainDays(page: TrainPage): (c: Column)
    ensures |c| == |page.runningDays|
  {
    seq(|page.runningDays|, i requires 0 <= i < |page.runningDays| => DaysOfRun(page.runningDays[i]))
  }

  /** Train list j in the order of the row tuple: name, type, departure,
      arrival, source, duration, destination, fare, frequency. */
  function TrainColumn(page: TrainPage, j: nat): (c: Column)
    requires j < TrainFields
    ensures j == 0 || j == 1 ==> |c| == |ExtractText(page.names)|
    ensures j == 2 || j == 3 || j == 4 || j == 6 ==> |c| == |page.times|
    ensures j == 5 ==> |c| == |ExtractText(page.durations)|
    ensures j == 7 ==> |c| == |page.fareMenus|
    ensures j == 8 ==> |c| == |page.runningDays|
    ensures j == 0 ==> c == ExtractText(page.names)
    ensures j == 1 ==> forall i :: 0 <= i < |c| ==> c[i] == TrainType(ExtractText(page.names)[i])
    ensures j == 2 ==> forall i :: 0 <= i < |c| ==> c[i] == TrainTimes(page.times[i]).departure
    ensures j == 3 ==> forall i :: 0 <= i < |c| ==> c[i] == TrainTimes(page.times[i]).arrival
    ensures j == 4 ==> forall i :: 0 <= i < |c| ==> c[i] == TrainTimes(page.times[i]).source
    ensures j == 5 ==> c == ExtractText(page.durations)
    ensures j == 6 ==> forall i :: 0 <= i < |c| ==> c[i] == TrainTimes(page.times[i]).destination
    ensures j == 7 ==> forall i :: 0 <= i < |c| ==> c[i] == TrainPrices(ExtractText(page.fareMenus[i]))
    ensures j == 8 ==> forall i :: 0 <= i < |c| ==> c[i] == DaysOfRun(page.runningDays[i])
  {
    match j
    case 0 => TrainNames(page)
    case 1 => TrainTypes(page)
    case 2 => TimeColumn(TimesOf(page), 0)
    case 3 => TimeColumn(TimesOf(page), 1)
    case 4 => TimeColumn(TimesOf(page), 2)
    case 5 => TrainDurations(page)
    case 6 => TimeColumn(TimesOf(page), 3)
    case 7 => TrainFares(page)
    case _ => TrainDays(page)
  }

  /** The nine train lists in the order of the row tuple. */
  function TrainColumnsOf(page: TrainPage): (ls: seq<Column>)
    ensures |ls| == TrainFields
    ensures forall j :: 0 <= j < TrainFields ==> ls[j] == TrainColumn(page, j)
  {
    seq(TrainFields, j requires 0 <= j < TrainFields => TrainColumn(page, j))
  }

  /** scrape_trains_from_source: the padded train rows of a page. */
  function TrainRecords(page: TrainPage, routeType: string): seq<Row> {
    AlignTrains(TrainColumnsOf(page), routeType)
  }

  /** There are as many train rows as the longest of the name, duration,
      time-block, fare-menu and running-day lists. */
  lemma TrainRecordsCount(page: TrainPage, routeType: string)
    ensures var n := |TrainRecords(page, routeType)|;
            |ExtractText(page.names)| <= n && |ExtractText(page.durations)| <= n
            && |page.times| <= n && |page.fareMenus| <= n && |page.runningDays| <= n
            && (n == |ExtractText(page.names)| || n == |ExtractText(page.durations)|
                || n == |page.times| || n == |page.fareMenus| || n == |page.runningDays|)
  {
    var ls := TrainColumnsOf(page);
    var m := MaxLen(ls);
    assert |TrainRecords(page, routeType)| == m;
    assert |TrainColumn(page, 0)| <= m && |TrainColumn(page, 2)| <= m && |TrainColumn(page, 5)| <= m;
    assert |TrainColumn(page, 7)| <= m && |TrainColumn(page, 8)| <= m;
    var k :| 0 <= k < |ls| && m == |ls[k]|;
    assert m == |TrainColumn(page, k)|;
  }

  /** No train's data is lost: column j of the first rows holds train list
      j in order, and "N/A" after the list runs out. */
  lemma TrainRecordsColumn(page: TrainPage, routeType: string, j: nat)
    requires j < TrainFields
    ensures var rows := TrainRecords(page, routeType);
            |TrainColumn(page, j)| <= |rows|
            && (forall i :: 0 <= i < |TrainColumn(page, j)| ==> rows[i][j] == TrainColumn(page, j)[i])
            && (forall i :: |TrainColumn(page, j)| <= i < |rows| ==> rows[i][j] == "N/A")
  {
    AlignTrainsColumn(TrainColumnsOf(page), routeType, j);
  }

  // ---- hotels ----

  /** What the browser gives for one property card. */
  datatype Card = Card(title: Lookup, address: Lookup, price: Lookup, hotelType: Lookup,
                       stars: Option<nat>)

  /** One hotel record; the map link is represented by the text it
      searches for. */
  datatype Hotel = Hotel(name: string, address: string, rating: HotelRating, price: string,
                         hotelType: string, mapQuery: Option<string>)

  /** The search text get_google_maps_link is given: nothing for a missing
      name; the name followed by the address up to its first comma, when
      there is an address and that part is not empty; else the name. */
  function MapQuery(name: string, address: string): (q: Option<string>)
    ensures q.None? <==> name == "" || name == "N/A"
    ensures q.Some? ==> |name| <= |q.value| && q.value[..|name|] == name
  {
    if name == "" || name == "N/A" then None
    else if address != "N/A" && Split(address, ',')[0] != "" then
      Some(name + ", " + Split(address, ',')[0])
    else Some(name)
  }

  /** The query names the hotel and its town, the part of the address
      before its first comma. */
  lemma MapQueryTown(name: string, town: string, rest: string)
    requires name != "" && name != "N/A" && town != "" && ',' !in town
    ensures MapQuery(name, town + "," + rest) == Some(name + ", " + town)
  {
    var address := town + "," + rest;
    assert address[|town|] == ',';
    IndexOfIs(address, ',', |town|);
    assert address[..|town|] == town;
    assert address != "N/A" by {
      assert |address| == |town| + 1 + |rest|;
      if |address| == 3 {
        assert address[|town|] == ',';
        assert "N/A"[0] != ',' && "N/A"[1] != ',' && "N/A"[2] != ',';
      }
    }
  }

  /** A hotel record and what producing it logged. */
  datatype CardResult = CardResult(hotel: Hotel, log: seq<LogEntry>)

  /** One card: the four cleaned fields in order, then the rating. */
  function ScrapeCard(card: Card, index: nat, bounds: Option<(nat, nat)>): (r: CardResult)
    ensures |r.log| <= 5
    ensures r.hotel.rating.Stars? <==> card.stars.Some?
    ensures IsStripped(r.hotel.name) && IsStripped(r.hotel.address)
    ensures IsStripped(r.hotel.price) && IsStripped(r.hotel.hotelType)
    ensures r.hotel.name == ExtractField(card.title, TitleCleaner, index, "Title").value
    ensures r.hotel.address == ExtractField(card.address, AddressCleaner, index, "Address").value
    ensures r.hotel.price == ExtractField(card.price, PriceCleaner, index, "Price").value
    ensures r.hotel.hotelType == ExtractField(card.hotelType, TypeCleaner, index, "Type").value
    ensures r.hotel.mapQuery == MapQuery(r.hotel.name, r.hotel.address)
    ensures card.stars.Some? ==> ReadPrice(r.hotel.rating.text) == Priced(card.stars.value)
    ensures card.stars.None? ==> r.hotel.rating == Estimated(EstimateBand(r.hotel.price, bounds, index).band)
  {
    var title := ExtractField(card.title, TitleCleaner, index, "Title");
    var address := ExtractField(card.address, AddressCleaner, index, "Address");
    var price := ExtractField(card.price, PriceCleaner, index, "Price");
    var hotelType := ExtractField(card.hotelType, TypeCleaner, index, "Type");
    var rating := RateHotel(card.stars, price.value, bounds, index);
    CardResult(Hotel(title.value, address.value, rating.0, price.value, hotelType.value,
                     MapQuery(title.value, address.value)),
               title.log + address.log + price.log + hotelType.log + rating.1)
  }

  /** The browser read every field of the card without failure, and the
      card shows its stars. */
  predicate Quiet(card: Card) {
    !card.title.Failed? && !card.address.Failed? && !card.price.Failed?
    && !card.hotelType.Failed? && card.stars.Some?
  }

  /** A quiet card logs nothing. */
  lemma ScrapeCardQuiet(card: Card, index: nat, bounds: Option<(nat, nat)>)
    requires Quiet(card)
    ensures ScrapeCard(card, index, bounds).log == []
  {
  }

  /** Every stored field is a fixed point of its cleaner, or "N/A". */
  lemma ScrapeCardClean(card: Card, index: nat, bounds: Option<(nat, nat)>)
    ensures var h := ScrapeCard(card, index, bounds).hotel;
            (h.name == "N/A" || Clean(TitleCleaner, h.name) == h.name)
            && (h.address == "N/A" || Clean(AddressCleaner, h.address) == h.address)
            && (h.price == "N/A" || Clean(PriceCleaner, h.price) == h.price)
            && (h.hotelType == "N/A" || Clean(TypeCleaner, h.hotelType) == h.hotelType)
  {
    var h := ScrapeCard(card, index, bounds).hotel;
    CleanFixed(card.title, TitleCleaner, index, "Title");
    CleanFixed(card.address, AddressCleaner, index, "Address");
    CleanFixed(card.price, PriceCleaner, index, "Price");
    CleanFixed(card.hotelType, TypeCleaner, index, "Type");
  }

  lemma CleanFixed(lookup: Lookup, k: Cleaner, index: nat, field: string)
    ensures var v := ExtractField(lookup, k, index, field).value;
            v == "N/A" || Clean(k, v) == v
  {
    if lookup.Found? && Strip(lookup.text) != "" {
      CleanIdempotent(k, Strip(lookup.text));
    }
  }

  /** Every card's result, the i-th card having index i. */
  function ScrapeCards(cards: seq<Card>, bounds: Option<(nat, nat)>): (rs: seq<CardResult>)
    ensures |rs| == |cards|
    ensures forall i :: 0 <= i < |cards| ==> rs[i] == ScrapeCard(cards[i], i, bounds)
  {
    seq(|cards|, i requires 0 <= i < |cards| => ScrapeCard(cards[i], i, bounds))
  }

  /** The hotels of the results, in card order. */
  function HotelsOf(rs: seq<CardResult>): (hs: seq<Hotel>)
    ensures |hs| == |rs| && forall i :: 0 <= i < |rs| ==> hs[i] == rs[i].hotel
  {
    seq(|rs|, i requires 0 <= i < |rs| => rs[i].hotel)
  }

  /** The logs of the results joined in card order. */
  function LogsOf(rs: seq<CardResult>): seq<LogEntry>
    decreases |rs|
  {
    if |rs| == 0 then [] else rs[0].log + LogsOf(rs[1..])
  }

  /** Each card contributes at most five entries. */
  lemma {:induction false} LogsOfBounded(rs: seq<CardResult>)
    requires forall i :: 0 <= i < |rs| ==> |rs[i].log| <= 5
    ensures |LogsOf(rs)| <= 5 * |rs|
    decreases |rs|
  {
    if |rs| > 0 {
      assert forall i :: 0 <= i < |rs[1..]| ==> rs[1..][i] == rs[i + 1];
      LogsOfBounded(rs[1..]);
    }
  }

  /** Results that all logged nothing join to an empty log. */
  lemma {:induction false} LogsOfQuiet(rs: seq<CardResult>)
    requires forall i :: 0 <= i < |rs| ==> rs[i].log == []
    ensures LogsOf(rs) == []
    decreases |rs|
  {
    if |rs| > 0 {
      assert forall i :: 0 <= i < |rs[1..]| ==> rs[1..][i] == rs[i + 1];
      LogsOfQuiet(rs[1..]);
    }
  }

  /** The default scroll settings: max_wait = 10 seconds, pause_time = 2. */
  const MaxWait: nat := 10
  const PauseTime: nat := 2

  /** scrape_hotels_from_source: the log starts empty, gathers what
      scrolling and reading the price filter logged, then each card's
      entries in card order. */
  function ScrapeHotels(observe: nat -> Observation, slider: Lookup, cards: seq<Card>)
    : (r: (seq<Hotel>, seq<LogEntry>))
    ensures |r.0| == |cards|
    ensures var filter := ReadPriceFilter(slider);
            forall i :: 0 <= i < |cards| ==> r.0[i] == ScrapeCard(cards[i], i, filter.bounds).hotel
    ensures var scroll := Run(observe, MaxWait, PauseTime, Start).log;
            var filter := ReadPriceFilter(slider);
            r.1 == scroll + filter.log + LogsOf(ScrapeCards(cards, filter.bounds))
  {
    var scroll := Run(observe, MaxWait, PauseTime, Start);
    var filter := ReadPriceFilter(slider);
    var results := ScrapeCards(cards, filter.bounds);
    (HotelsOf(results), scroll.log + filter.log + LogsOf(results))
  }

  /** The log holds at most the scroll entry, the filter entry and five
      entries per card. */
  lemma ScrapeHotelsLogBounded(observe: nat -> Observation, slider: Lookup, cards: seq<Card>)
    ensures |ScrapeHotels(observe, slider, cards).1| <= 2 + 5 * |cards|
  {
    var filter := ReadPriceFilter(slider);
    LogsOfBounded(ScrapeCards(cards, filter.bounds));
  }

  /** A page that scrolls to a stable count, whose filter reads, and whose
      cards are all quiet gives an empty log. */
  lemma ScrapeHotelsQuiet(observe: nat -> Observation, slider: Lookup, cards: seq<Card>)
    requires Run(observe, MaxWait, PauseTime, Start).outcome.Stable?
    requires ReadPriceFilter(slider).bounds.Some?
    requires forall i :: 0 <= i < |cards| ==> Quiet(cards[i])
    ensures ScrapeHotels(observe, slider, cards).1 == []
  {
    var filter := ReadPriceFilter(slider);
    var rs := ScrapeCards(cards, filter.bounds);
    forall i | 0 <= i < |rs|
      ensures rs[i].log == []
    {
      ScrapeCardQuiet(cards[i], i, filter.bounds);
    }
    LogsOfQuiet(rs);
  }
}

=== FILE: scroll.dfy ===
/** scroll_to_load_all_cards as a state machine: each round scrolls, waits
    pause seconds and counts the hotel cards; the loop stops once the count
    has not grown for maxWait seconds, once more than 300 seconds have
    passed, or when counting fails. The clock is abstract: each round takes
    exactly pause seconds. */
module Scroll {
  import opened Page

  /** Seconds after which the loop gives up. */
  const TimeLimit: nat := 300

  /** The loop's variables after some rounds. */
  datatype Scroller = Scroller(rounds: nat, lastCount: nat, stableTime: nat, elapsed: nat)

  const Start := Scroller(0, 0, 0, 0)

  datatype Outcome = Stable(cards: nat) | TimedOut | CountFailed

  /** How the loop ended, the variables at that point and what it logged. */
  datatype Finish = Finish(outcome: Outcome, state: Scroller, log: seq<LogEntry>)

  /** One round with a successful count: the largest count so far is kept,
      and the time without growth restarts only when the count exceeds it. */
  function Observe(s: Scroller, current: nat, pause: nat): (t: Scroller)
    ensures t.rounds == s.rounds + 1 && t.elapsed == s.elapsed + pause
    ensures t.lastCount >= s.lastCount && t.lastCount >= current
    ensures t.lastCount == s.lastCount || t.lastCount == current
    ensures t.stableTime == 0 <==> current > s.lastCount || s.stableTime + pause == 0
    ensures current <= s.lastCount ==> t.stableTime == s.stableTime + pause
  {
    if current > s.lastCount then Scroller(s.rounds + 1, current, 0, s.elapsed + pause)
    else Scroller(s.rounds + 1, s.lastCount, s.stableTime + pause, s.elapsed + pause)
  }

  /** Rounds from s until the loop stops; observe(k) is what counting the
      cards in round k gives. */
  function Run(observe: nat -> Observation, maxWait: nat, pause: nat, s: Scroller): (f: Finish)
    requires pause > 0 && s.elapsed <= TimeLimit
    ensures f.state.rounds >= s.rounds && f.state.lastCount >= s.lastCount
    ensures f.state.elapsed == s.elapsed + (f.state.rounds - s.rounds) * pause
    ensures f.state.elapsed <= TimeLimit + pause
    ensures forall k :: s.rounds <= k < f.state.rounds ==> observe(k).Count?
    ensures f.outcome.Stable? ==>
              (f.log == [] && f.state.stableTime >= maxWait && f.state.rounds > s.rounds
               && observe(f.state.rounds - 1) == Count(f.outcome.cards))
    ensures f.outcome.TimedOut? ==>
              (f.log == [ScrollTimedOut] && f.state.elapsed > TimeLimit && f.state.stableTime < maxWait)
    ensures f.outcome.CountFailed? ==>
              (f.log == [ScrollFailed] && observe(f.state.rounds).QueryError?)
    decreases TimeLimit - s.elapsed
  {
    match observe(s.rounds)
    case QueryError => Finish(CountFailed, s, [ScrollFailed])
    case Count(current) =>
      var t := Observe(s, current, pause);
      if t.stableTime >= maxWait then Finish(Stable(current), t, [])
      else if t.elapsed > TimeLimit then Finish(TimedOut, t, [ScrollTimedOut])
      else
        var f := Run(observe, maxWait, pause, t);
        MulStep(f.state.rounds - t.rounds, pause);
        f
  }

  lemma MulStep(a: nat, c: nat)
    ensures (a + 1) * c == a * c + c
  {
  }

  /** The largest of base and the counts seen in rounds first until last
      (exclusive). */
  function MaxSeen(observe: nat -> Observation, first: nat, last: nat, base: nat): nat
    requires first <= last
    requires forall k :: first <= k < last ==> observe(k).Count?
    decreases last - first
  {
    if first == last then base
    else
      var c := observe(first).cards;
      MaxSeen(observe, first + 1, last, if c > base then c else base)
  }

  /** The kept count is the running maximum of everything counted. */
  lemma {:induction false} RunTracksMax(observe: nat -> Observation, maxWait: nat, pause: nat, s: Scroller)
    requires pause > 0 && s.elapsed <= TimeLimit
    ensures var f := Run(observe, maxWait, pause, s);
            f.state.lastCount == MaxSeen(observe, s.rounds, f.state.rounds, s.lastCount)
    decreases TimeLimit - s.elapsed
  {
    match observe(s.rounds)
    case QueryError =>
    case Count(current) =>
      var t := Observe(s, current, pause);
      if t.stableTime < maxWait && t.elapsed <= TimeLimit {
        RunTracksMax(observe, maxWait, pause, t);
      }
  }

  /** Every run from the start ends within the time limit plus one round. */
  lemma RunBounded(observe: nat -> Observation, maxWait: nat, pause: nat)
    requires pause > 0
    ensures var f := Run(observe, maxWait, pause, Start);
            f.state.rounds * pause <= TimeLimit + pause
  {
  }

  lemma MulMono(a: nat, b: nat, c: nat)
    requires a <= b
    ensures a * c <= b * c
  {
  }

  /** After the count stops growing, the loop stops Stable after exactly n
      more rounds, n being maxWait / pause rounded up, provided the time
      limit is not reached first. Here j rounds of the plateau are behind. */
  lemma {:induction false} Plateau(observe: nat -> Observation, maxWait: nat, pause: nat, s: Scroller,
                                   j: nat, n: nat)
    requires pause > 0 && s.elapsed <= TimeLimit
    requires 1 <= n && (n - 1) * pause < maxWait <= n * pause
    requires j < n && s.stableTime == j * pause
    requires s.elapsed + (n - j - 1) * pause <= TimeLimit
    requires forall k :: s.rounds <= k < s.rounds + (n - j) ==>
               observe(k).Count? && observe(k).cards <= s.lastCount
    ensures Run(observe, maxWait, pause, s).outcome.Stable?
    ensures Run(observe, maxWait, pause, s).state.rounds == s.rounds + (n - j)
    decreases n - j
  {
    var t := Observe(s, observe(s.rounds).cards, pause);
    MulStep(j, pause);
    assert t.stableTime == (j + 1) * pause;
    if j + 1 < n {
      MulMono(j + 1, n - 1, pause);
      MulStep(n - j - 2, pause);
      assert t.lastCount == s.lastCount;
      assert t.elapsed + (n - (j + 1) - 1) * pause <= TimeLimit;
      Plateau(observe, maxWait, pause, t, j + 1, n);
    }
  }

  /** With the defaults max_wait = 10 and pause_time = 2, a plateau of
      five rounds ends the loop. */
  lemma DefaultPlateau(observe: nat -> Observation, s: Scroller)
    requires s.elapsed + 8 <= TimeLimit && s.stableTime == 0
    requires forall k :: s.rounds <= k < s.rounds + 5 ==>
               observe(k).Count? && observe(k).cards <= s.lastCount
    ensures Run(observe, 10, 2, s).outcome.Stable?
    ensures Run(observe, 10, 2, s).state.rounds == s.rounds + 5
  {
    Plateau(observe, 10, 2, s, 0, 5);
  }

  /** A page whose count never settles runs into the time limit: with the
      count growing every round the loop ends TimedOut after 151 rounds of
      two seconds. */
  lemma AlwaysGrowing(observe: nat -> Observation, maxWait: nat)
    requires maxWait > 0
    requires forall k: nat :: observe(k) == Count(k + 1)
    ensures Run(observe, maxWait, 2, Start).outcome == TimedOut
    ensures Run(observe, maxWait, 2, Start).state.rounds == 151
  {
    GrowingRun(observe, maxWait, Start);
  }

  lemma {:induction false} GrowingRun(observe: nat -> Observation, maxWait: nat, s: Scroller)
    requires maxWait > 0 && s.elapsed <= TimeLimit
    requires s.elapsed == 2 * s.rounds && s.lastCount == s.rounds
    requires forall k: nat :: observe(k) == Count(k + 1)
    ensures Run(observe, maxWait, 2, s).outcome == TimedOut
    ensures Run(observe, maxWait, 2, s).state.rounds == 151
    decreases TimeLimit - s.elapsed
  {
    var t := Observe(s, s.rounds + 1, 2);
    if t.elapsed <= TimeLimit {
      GrowingRun(observe, maxWait, t);
    }
  }
}

=== FILE: text.dfy ===
/** ASCII string primitives used by the scraper's cleaning code: Python's
    lower(), `in` on strings, strip(), replace(), split() and join(),
    and regular-expression character filters. */
module Text {

  /** Python's str.isspace() restricted to ASCII: space, \t \n \v \f \r and
      the four separator controls \x1c to \x1f. */
  predicate IsSpace(c: char) {
    c == ' ' || ('\t' <= c <= '\r') || ('\U{1C}' <= c <= '\U{1F}')
  }

  function LowerChar(c: char): char {
    if 'A' <= c <= 'Z' then (c as int - 'A' as int + 'a' as int) as char else c
  }

  /** str.lower() on ASCII text. */
  function Lower(s: string): (r: string)
    ensures |r| == |s|
    ensures forall i :: 0 <= i < |s| ==> r[i] == LowerChar(s[i])
  {
    seq(|s|, i requires 0 <= i < |s| => LowerChar(s[i]))
  }

  lemma LowerAppend(a: string, b: string)
    ensures Lower(a + b) == Lower(a) + Lower(b)
  {
    assert forall i :: 0 <= i < |a + b| ==> Lower(a + b)[i] == (Lower(a) + Lower(b))[i];
  }

  /** A character is absent from the lower-cased text when neither it nor
      its upper-case form occurs in the original. */
  lemma LowerExcludes(s: string, c: char, upper: char)
    requires 'a' <= c <= 'z' && upper as int == c as int - 'a' as int + 'A' as int
    requires c !in s && upper !in s
    ensures c !in Lower(s)
  {
  }

  /** sub occurs in s starting at index i. */
  predicate OccursAt(s: string, sub: string, i: int) {
    0 <= i && i + |sub| <= |s| && s[i..i + |sub|] == sub
  }

  /** `sub in s` for Python strings: some slice of s equals sub. */
  predicate Contains(s: string, sub: string) {
    exists i | 0 <= i <= |s| - |sub| :: OccursAt(s, sub, i)
  }

  lemma ContainsMiddle(a: string, sub: string, b: string)
    ensures Contains(a + sub + b, sub)
  {
    assert OccursAt(a + sub + b, sub, |a|);
  }

  /** If some character of sub never occurs in s, then sub is not in s. */
  lemma AbsentChar(s: string, sub: string, k: nat)
    requires k < |sub| && sub[k] !in s
    ensures !Contains(s, sub)
  {
    forall i | 0 <= i <= |s| - |sub|
      ensures !OccursAt(s, sub, i)
    {
      assert s[i..i + |sub|][k] == s[i + k];
    }
  }

  /** A text containing sub + more also contains sub ("exp" implies "ex"). */
  lemma ContainsPrefixOfSub(s: string, sub: string, more: string)
    requires Contains(s, sub + more)
    ensures Contains(s, sub)
  {
    var i :| 0 <= i <= |s| - |sub + more| && OccursAt(s, sub + more, i);
    assert s[i..i + |sub|] == (sub + more)[..|sub|];
    assert OccursAt(s, sub, i);
  }

  // ---- strip() ----

  /** str.lstrip(): drop leading whitespace. */
  function TrimStart(s: string): (r: string)
    ensures |r| <= |s| && r == s[|s| - |r|..]
    ensures r == [] || !IsSpace(r[0])
    ensures forall i :: 0 <= i < |s| - |r| ==> IsSpace(s[i])
    decreases |s|
  {
    if |s| > 0 && IsSpace(s[0]) then TrimStart(s[1..]) else s
  }

  /** str.rstrip(): drop trailing whitespace. */
  function TrimEnd(s: string): (r: string)
    ensures |r| <= |s| && r == s[..|r|]
    ensures r == [] || !IsSpace(r[|r| - 1])
    ensures forall i :: |r| <= i < |s| ==> IsSpace(s[i])
    decreases |s|
  {
    if |s| > 0 && IsSpace(s[|s| - 1]) then TrimEnd(s[..|s| - 1]) else s
  }

  predicate IsStripped(s: string) {
    s == [] || (!IsSpace(s[0]) && !IsSpace(s[|s| - 1]))
  }

  /** str.strip(): the longest slice of s that neither starts nor ends with
      whitespace, obtained by dropping only whitespace. */
  function Strip(s: string): (r: string)
    ensures IsStripped(r)
    ensures exists a, b :: 0 <= a <= b <= |s| && r == s[a..b]
                           && (forall i :: 0 <= i < a ==> IsSpace(s[i]))
                           && (forall i :: b <= i < |s| ==> IsSpace(s[i]))
  {
    var t := TrimStart(s);
    var r := TrimEnd(t);
    assert r == s[|s| - |t|..|s| - |t| + |r|];
    r
  }

  lemma StripStripped(s: string)
    requires IsStripped(s)
    ensures Strip(s) == s
  {
  }

  lemma StripIdempotent(s: string)
    ensures Strip(Strip(s)) == Strip(s)
  {
    StripStripped(Strip(s));
  }

  /** Stripping never introduces a character. */
  lemma StripKeepsOut(s: string, c: char)
    requires c !in s
    ensures c !in Strip(s)
  {
    var r := Strip(s);
    var a, b :| 0 <= a <= b <= |s| && r == s[a..b];
    SliceKeepsOut(s, a, b, c);
  }

  /** A slice holds no character its sequence does not. */
  lemma SliceKeepsOut(s: string, a: nat, b: nat, c: char)
    requires a <= b <= |s| && c !in s
    ensures c !in s[a..b]
  {
    forall i | 0 <= i < b - a
      ensures s[a..b][i] != c
    {
      assert s[a..b][i] == s[a + i];
    }
  }

  /** Stripping keeps every character that is not whitespace. */
  lemma StripKeepsIn(s: string, d: char)
    requires d in s && !IsSpace(d)
    ensures d in Strip(s)
  {
    var k :| 0 <= k < |s| && s[k] == d;
    var t := TrimStart(s);
    TrimStartKeeps(s, k);
    TrimEndKeeps(t, k - (|s| - |t|));
  }

  /** A non-space character at k is still there, k - (|s| - |r|), after
      dropping leading whitespace. */
  lemma TrimStartKeeps(s: string, k: nat)
    requires k < |s| && !IsSpace(s[k])
    ensures |s| - |TrimStart(s)| <= k && TrimStart(s)[k - (|s| - |TrimStart(s)|)] == s[k]
  {
  }

  lemma TrimEndKeeps(s: string, k: int)
    requires 0 <= k < |s| && !IsSpace(s[k])
    ensures k < |TrimEnd(s)| && TrimEnd(s)[k] == s[k]
  {
  }

  // ---- replace() and character filters ----

  /** str.replace(c, rep) for a one-character pattern. */
  function Replace(s: string, c: char, rep: string): (r: string)
    ensures c !in rep ==> c !in r
    ensures c !in s ==> r == s
    decreases |s|
  {
    if |s| == 0 then ""
    else (if s[0] == c then rep else [s[0]]) + Replace(s[1..], c, rep)
  }

  lemma ReplaceAppend(a: string, b: string, c: char, rep: string)
    ensures Replace(a + b, c, rep) == Replace(a, c, rep) + Replace(b, c, rep)
    decreases |a|
  {
    if |a| > 0 {
      assert (a + b)[0] == a[0];
      assert (a + b)[1..] == a[1..] + b;
      ReplaceAppend(a[1..], b, c, rep);
    } else {
      assert a + b == b;
    }
  }

  /** Replacing c leaves every other character in place. */
  lemma ReplaceKeepsIn(s: string, c: char, rep: string, d: char)
    requires d != c && d in s
    ensures d in Replace(s, c, rep)
    decreases |s|
  {
    if s[0] != d {
      ReplaceKeepsIn(s[1..], c, rep, d);
    }
  }

  /** str.replace(c, "") */
  function Remove(s: string, c: char): string {
    Replace(s, c, "")
  }

  lemma ReplaceKeepsOut(s: string, c: char, rep: string, d: char)
    requires d !in s && d !in rep
    ensures d !in Replace(s, c, rep)
    decreases |s|
  {
    if |s| > 0 {
      ReplaceKeepsOut(s[1..], c, rep, d);
    }
  }

  /** re.sub(r'[^...]', '', s): keep exactly the characters that satisfy keep. */
  function Filter(s: string, keep: char -> bool): (r: string)
    ensures forall i :: 0 <= i < |r| ==> keep(r[i])
    ensures forall c :: c in r ==> c in s
    ensures |r| <= |s|
    decreases |s|
  {
    if |s| == 0 then ""
    else (if keep(s[0]) then [s[0]] else []) + Filter(s[1..], keep)
  }

  lemma FilterAll(s: string, keep: char -> bool)
    requires forall i :: 0 <= i < |s| ==> keep(s[i])
    ensures Filter(s, keep) == s
    decreases |s|
  {
    if |s| > 0 {
      FilterAll(s[1..], keep);
    }
  }

  lemma FilterAppend(a: string, b: string, keep: char -> bool)
    ensures Filter(a + b, keep) == Filter(a, keep) + Filter(b, keep)
    decreases |a|
  {
    if |a| > 0 {
      assert (a + b)[0] == a[0];
      assert (a + b)[1..] == a[1..] + b;
      FilterAppend(a[1..], b, keep);
    } else {
      assert a + b == b;
    }
  }

  lemma FilterNone(s: string, keep: char -> bool)
    requires forall i :: 0 <= i < |s| ==> !keep(s[i])
    ensures Filter(s, keep) == ""
    decreases |s|
  {
    if |s| > 0 {
      FilterNone(s[1..], keep);
    }
  }

  // ---- split() and join() ----

  /** Index of the first occurrence of c. */
  function IndexOf(s: string, c: char): (k: nat)
    requires c in s
    ensures k < |s| && s[k] == c && c !in s[..k]
    ensures forall j :: 0 <= j < k ==> s[j] != c
    decreases |s|
  {
    if s[0] == c then 0
    else
      var k := IndexOf(s[1..], c);
      assert s[..k + 1] == [s[0]] + s[1..][..k];
      k + 1
  }

  /** IndexOf finds the first occurrence and no other. */
  lemma IndexOfIs(s: string, c: char, k: nat)
    requires k < |s| && s[k] == c
    requires forall j :: 0 <= j < k ==> s[j] != c
    ensures IndexOf(s, c) == k
  {
  }

  /** str.split(c) for a one-character separator: the maximal c-free pieces
      between occurrences of c; there is always one more piece than there
      are separators. */
  function Split(s: string, c: char): (parts: seq<string>)
    ensures |parts| >= 1
    ensures forall i :: 0 <= i < |parts| ==> c !in parts[i]
    decreases |s|
  {
    if c !in s then [s]
    else
      var k := IndexOf(s, c);
      [s[..k]] + Split(s[k + 1..], c)
  }

  /** Splitting never introduces a character. */
  lemma {:induction false} SplitKeepsOut(s: string, c: char, d: char)
    requires d !in s
    ensures forall i :: 0 <= i < |Split(s, c)| ==> d !in Split(s, c)[i]
    decreases |s|
  {
    if c in s {
      var k := IndexOf(s, c);
      SplitKeepsOut(s[k + 1..], c, d);
      assert d !in s[k + 1..];
      assert d !in s[..k];
      assert Split(s, c) == [s[..k]] + Split(s[k + 1..], c);
    }
  }

  /** There is one more piece than there are separators. */
  lemma {:induction false} SplitCount(s: string, c: char)
    ensures |Split(s, c)| == multiset(s)[c] + 1
    decreases |s|
  {
    if c in s {
      var k := IndexOf(s, c);
      SplitCount(s[k + 1..], c);
      assert s == s[..k] + [c] + s[k + 1..];
      assert multiset(s) == multiset(s[..k]) + multiset{c} + multiset(s[k + 1..]);
      assert multiset(s[..k])[c] == 0;
    } else {
      assert multiset(s)[c] == 0;
    }
  }

  /** sep.join(parts) */
  function Join(parts: seq<string>, sep: string): string
    decreases |parts|
  {
    if |parts| == 0 then ""
    else if |parts| == 1 then parts[0]
    else parts[0] + sep + Join(parts[1..], sep)
  }

  /** Three parts joined: a, sep, b, sep, c. */
  lemma JoinThree(a: string, b: string, c: string, sep: string)
    ensures Join([a, b, c], sep) == a + sep + b + sep + c
  {
    assert [a, b, c][1..] == [b, c];
    assert [b, c][1..] == [c];
    assert Join([c], sep) == c;
    assert Join([b, c], sep) == b + sep + c;
    assert Join([a, b, c], sep) == a + sep + (b + sep + c);
  }

  /** Joining separator-free pieces and splitting again gives the pieces back. */
  lemma {:induction false} SplitJoin(parts: seq<string>, c: char)
    requires |parts| >= 1
    requires forall i :: 0 <= i < |parts| ==> c !in parts[i]
    ensures Split(Join(parts, [c]), c) == parts
    decreases |parts|
  {
    if |parts| > 1 {
      var tail := Join(parts[1..], [c]);
      assert Join(parts, [c]) == parts[0] + [c] + tail;
      SplitAtFirst(parts[0], c, tail);
      assert forall i :: 0 <= i < |parts[1..]| ==> parts[1..][i] == parts[i + 1];
      SplitJoin(parts[1..], c);
      assert parts == [parts[0]] + parts[1..];
    }
  }

  /** A c-free head, c, then the rest: the head is the first piece. */
  lemma SplitAtFirst(head: string, c: char, tail: string)
    requires c !in head
    ensures Split(head + [c] + tail, c) == [head] + Split(tail, c)
  {
    var s := head + [c] + tail;
    assert s[|head|] == c;
    forall j | 0 <= j < |head|
      ensures s[j] != c
    {
      assert s[j] == head[j];
    }
    IndexOfIs(s, c, |head|);
    assert s[..|head|] == head;
    assert s[|head| + 1..] == tail;
  }

  /** The first piece of a split: the text before the first separator. */
  lemma SplitFirst(s: string, c: char)
    ensures c !in s ==> Split(s, c) == [s]
    ensures c in s ==> Split(s, c)[0] == s[..IndexOf(s, c)]
  {
  }

  /** Splitting a join on the separator's first character c: with no c
      in the pieces nor in the rest of the separator, the first piece is
      pre followed by the first part, and every later piece is the rest of
      the separator followed by its part. */
  lemma {:induction false} JoinSplitPieces(pre: string, parts: seq<string>, c: char, rest: string)
    requires |parts| >= 1 && c !in pre && c !in rest
    requires forall i :: 0 <= i < |parts| ==> c !in parts[i]
    ensures var ps := Split(pre + Join(parts, [c] + rest), c);
            |ps| == |parts| && ps[0] == pre + parts[0]
            && forall i :: 1 <= i < |parts| ==> ps[i] == rest + parts[i]
    decreases |parts|
  {
    var sep := [c] + rest;
    if |parts| == 1 {
      assert c !in pre + parts[0];
    } else {
      var head := pre + parts[0];
      var tail := Join(parts[1..], sep);
      assert c !in head;
      assert pre + Join(parts, sep) == head + [c] + (rest + tail) by {
        assert Join(parts, sep) == parts[0] + sep + tail;
      }
      var later := Split(rest + tail, c);
      JoinSplitPieces(rest, parts[1..], c, rest);
      SplitAtFirst(head, c, rest + tail);
      var ps := Split(pre + Join(parts, sep), c);
      assert ps == [head] + later;
      forall i | 1 <= i < |parts|
        ensures ps[i] == rest + parts[i]
      {
        assert ps[i] == later[i - 1];
        assert parts[1..][i - 1] == parts[i];
      }
    }
  }

  /** The same with nothing before the join: splitting ", ".join(parts) on
      ',' gives the first part, then each later part after a space. */
  lemma JoinSplitParts(parts: seq<string>, c: char, rest: string)
    requires |parts| >= 1 && c !in rest
    requires forall i :: 0 <= i < |parts| ==> c !in parts[i]
    ensures var ps := Split(Join(parts, [c] + rest), c);
            |ps| == |parts| && ps[0] == parts[0]
            && forall i :: 1 <= i < |parts| ==> ps[i] == rest + parts[i]
  {
    JoinSplitPieces("", parts, c, rest);
    assert "" + Join(parts, [c] + rest) == Join(parts, [c] + rest);
    assert "" + parts[0] == parts[0];
  }

  /** A stripped text followed by one space strips back to itself. */
  lemma StripTrailingSpace(s: string)
    requires IsStripped(s) && s != []
    ensures Strip(s + " ") == s
  {
    var t := s + " ";
    assert !IsSpace(t[0]);
    assert TrimStart(t) == t;
    assert t[..|t| - 1] == s;
    assert TrimEnd(t) == TrimEnd(s);
  }
}
